=== FILE: README.md ===
# Site blocker — a Dafny model of its core

`bloqueador.py` is a desktop utility that blocks websites. It keeps a list of
blocked domains and rewrites the operating system's hosts file so that each
blocked domain resolves to `127.0.0.1`. This project models the program's
non-graphical core in Dafny and proves properties of that model. The core has
four parts:

- **The site validator** (`SiteValidator`). This is the pattern
  `^(www\.)?[\w-]+\.[a-z]{2,}$` as a character-by-character recogniser. It is
  proved equal to a declarative description of the pattern's language.
  `IsValidSiteAsWritten` is the check as Python's `re.match` runs it, where
  `$` also matches just before one final newline; `\w` is read as the ASCII
  word characters (see Left out). `IsValidSite` is the same check anchored at
  the end of the input. The blocked list and the controller use `IsValidSite`
  (see Findings and Left out).
- **The blocked list** (`SiteList`). Adding checks the format first, then
  checks for a duplicate, then appends. Removing deletes the first entry equal
  to the selected text, as Python's `list.remove` does.
- **The hosts-file rewrite** (`TextLines`, `HostsEdit`).
  - `TextLines` models the file as the lines `readlines()` returns. Each line
    keeps its newline; only the last may lack one.
  - Deactivation writes back every line that contains no blocked domain as a
    substring.
  - Activation does the same and then appends one `127.0.0.1 <site>` line per
    blocked site. Truncation makes the written text the whole new content.
  - `ActivateAsWritten` is the program's activation as written. `Activate`
    is a corrected activation that closes an unterminated last line first
    (see Findings).
- **The controller** (`Blocker`). The state is the hosts content, the backup
  snapshot (if one exists) and the blocked list. It changes through the five
  user actions: add, remove, activate, deactivate and restore.
  - A cancelled confirmation leaves everything unchanged.
  - Without write permission, activate and deactivate fail with the state
    unchanged.
  - The backup is taken only once and never refreshed.
  - Activation runs `ActivateAsWritten`, as the program does. `StepCorrected`
    is the same controller with the corrected `Activate`.
  - The proofs show these properties:
    - after any sequence of actions, the list stays valid and free of
      duplicates;
    - after any sequence of actions, the original hosts content can still be
      restored;
    - when the hosts content ends with a newline, activating twice gives the
      same hosts content as activating once;
    - without that final newline, a second activation can change the content
      again, while the corrected controller is idempotent on any content.

`Wrappers` holds `Option` and `Result`. `Subsequences` defines "in the same
relative order".

Restoring with no backup is a success that changes nothing. The restore helper
copies the backup only when it exists (bloqueador.py:50-52). The restore action
then reports success whether or not a copy happened (bloqueador.py:123-126).
`Blocker.Perform` returns success with the state unchanged.

## Model

| member | source | states |
|---|---|---|
| `SiteValidator.IsValidSite` | bloqueador.py:40-42 | The anchored check accepts a string exactly when the whole string is in the language of `(www\.)?[\w-]+\.[a-z]{2,}`. The optional prefix is tried both ways. |
| `SiteValidator.ScanLabelCorrect` | bloqueador.py:41 | The scan of `[\w-]*\.[a-z]{2,}` succeeds exactly when some dot splits the text into label characters and a lower-case top-level part of two or more letters. |
| `SiteValidator.ScanSiteCorrect` | bloqueador.py:41 | The scan of `[\w-]+\.[a-z]{2,}` succeeds exactly when the text is a non-empty run of label characters, a dot and a top-level part. |
| `SiteValidator.IsValidSiteAsWritten` | bloqueador.py:40-42 | The program's check accepts exactly the strings of the pattern, plus those strings followed by one newline. |
| `SiteValidator.BeforeFinalNewline` | bloqueador.py:41-42 | A string ends with a newline and matches the pattern before it exactly when it is some string of the pattern followed by one newline. |
| `SiteValidator.AsWrittenAgreesWithoutNewline` | bloqueador.py:41-42 | Everything the anchored check accepts, the program's check accepts too. On input without a newline the two agree. |
| `SiteValidator.TrailingNewlineAccepted` | bloqueador.py:41-42 | `example.com` followed by a newline passes the program's check and fails the anchored one. |
| `SiteValidator.ValidSiteAlphabet` | bloqueador.py:41 | Every character of an accepted site is a letter, digit, `_`, `-` or `.`. |
| `SiteValidator.ValidSiteRejects` | bloqueador.py:41 | The empty text is rejected. So is text with no dot, and text containing a space or a newline. |
| `SiteValidator.LabelDotTldOneDot` | bloqueador.py:41 | A label, a dot and a top-level part hold exactly one dot between them. |
| `SiteValidator.ValidSiteDots` | bloqueador.py:41 | An accepted site has exactly one dot. The exception is a leading `www.`, which adds a second. |
| `SiteValidator.ValidSiteTld` | bloqueador.py:41 | After the last dot of an accepted site come at least two lower-case letters. |
| `SiteValidator.PrefixKeepsValid` | bloqueador.py:41 | A site accepted without the prefix is also accepted with `www.` in front. |
| `SiteValidator.AcceptedWithoutPrefix` | bloqueador.py:39-42 | `example.com` is accepted. |
| `SiteValidator.AcceptedWithPrefix` | bloqueador.py:39-42 | `www.example.com` is accepted. |
| `SiteValidator.AcceptedBareWww` | bloqueador.py:41 | `www.com` is accepted, read as label `www` and top-level part `com`. |
| `SiteValidator.RejectedExamples` | bloqueador.py:41 | `example` (no dot) and `exa mple.com` (a space) are rejected. |
| `SiteValidator.UpperCaseTldRejected` | bloqueador.py:41 | `EXAMPLE.COM` is rejected because the top-level part must be lower case. |
| `SiteList.Add` | bloqueador.py:58-67 | The format error is reported exactly when the site is invalid. The duplicate warning is reported exactly when a valid site is already listed. Otherwise the list gains the site at its end and keeps every earlier entry. |
| `SiteList.AddKeepsInvariant` | bloqueador.py:58-60 | On a valid, duplicate-free list, an addition succeeds exactly for a valid new site. The list stays valid and duplicate-free. |
| `SiteList.AddTwice` | bloqueador.py:59-65 | Adding a new valid site twice gives one copy, and the second attempt is reported as a duplicate. |
| `SiteList.FirstIndex` | bloqueador.py:74 | The position of the first entry equal to the selected text. No earlier entry equals it. |
| `SiteList.RemoveFirst` | bloqueador.py:74 | `list.remove` deletes exactly the entry at the first matching position. |
| `SiteList.DeleteAtCounts` | bloqueador.py:74 | Deleting one position removes one copy of that entry and leaves every other entry's count as it was. |
| `SiteList.DeleteAtOrder` | bloqueador.py:74 | Deleting one position keeps the other entries in their relative order. |
| `SiteList.Remove` | bloqueador.py:71-79 | An empty selection is reported as "nothing selected". Text not in the list is refused. Otherwise the list loses exactly one copy of the selected site, and the rest keep their order. |
| `SiteList.DeleteDistinctMembers` | bloqueador.py:74 | In a duplicate-free list, the deleted entry disappears and every other entry stays. |
| `SiteList.DeleteKeepsInvariant` | bloqueador.py:74 | A deletion keeps a list valid and free of duplicates. |
| `SiteList.RemoveFromDistinct` | bloqueador.py:73-76 | Removing a listed site from a valid, duplicate-free list succeeds. The site is then absent, the list is one shorter, every other site is still present in order, and the list stays valid and duplicate-free. |
| `SiteList.RemoveNothingSelected` | bloqueador.py:78-79 | With nothing selected, removal reports it and changes nothing. |
| `TextLines.Concat` | bloqueador.py:93-96 | Successive `write` calls: nothing written gives empty text, and the text starts with the first line written. |
| `TextLines.ConcatAppend` | bloqueador.py:91-96 | Writing two groups of lines one after the other writes the text of the first group, then the text of the second. |
| `TextLines.SplitLines` | bloqueador.py:88 | `readlines` loses nothing. Its lines joined give the text back, and each line ends at its first newline. |
| `TextLines.LineEnd` | bloqueador.py:88 | The first line read from the text runs up to and including its first newline, or to the end of the text when there is none. |
| `TextLines.SplitConcat` | bloqueador.py:88-93 | Reading back lines that were written gives exactly those lines. |
| `TextLines.WellFormedAppend` | bloqueador.py:91-96 | Closed lines followed by lines are still lines as `readlines` returns them. |
| `TextLines.SplitClosed` | bloqueador.py:88 | Text that ends with a newline reads as lines that all end with one. |
| `TextLines.ConcatClosed` | bloqueador.py:93 | Writing lines that all end with a newline gives text that ends with one. |
| `TextLines.FirstOccurrence` | bloqueador.py:92 | The earliest position where the blocked domain occurs in a line. |
| `TextLines.Contains` | bloqueador.py:92 | `site in line` holds when the line starts with the site, and never when the site is longer than the line. |
| `TextLines.ContainsAt` | bloqueador.py:92 | An occurrence at any position makes the substring test succeed. |
| `TextLines.ContainsIff` | bloqueador.py:92 | `site in line` holds exactly when the site occurs at some position of the line. |
| `TextLines.ContainsMiddle` | bloqueador.py:92 | A line built around a domain contains that domain. |
| `TextLines.ContainsAppendNewline` | bloqueador.py:92 | Appending a newline does not change whether a newline-free domain occurs in a line. |
| `TextLines.ContainsChars` | bloqueador.py:92 | Every character of an occurring domain occurs in the line. |
| `TextLines.SplitOneLine` | bloqueador.py:88 | A single line reads back as that one line. |
| `TextLines.JoinLine` | bloqueador.py:93-96 | Text without a newline written in front of a line forms one longer line. |
| `HostsEdit.Mentions` | bloqueador.py:92 | A line mentions the blocked list exactly when some blocked site occurs in it at some position. |
| `HostsEdit.RedirectLine` | bloqueador.py:96 | A redirect ends with a newline and contains its site. For a newline-free site it is exactly one line. |
| `HostsEdit.Filter` | bloqueador.py:91-93 | The kept lines are exactly the lines that contain no blocked site, in their original order. |
| `HostsEdit.FilterCounts` | bloqueador.py:91-93 | A line that mentions no blocked site is kept as often as it occurs. Any other line is never kept. |
| `HostsEdit.FilterAppend` | bloqueador.py:91-93 | Filtering distributes over joining two groups of lines. |
| `HostsEdit.FilterKeepsClean` | bloqueador.py:91-93 | Lines that mention no blocked site all survive the filter. |
| `HostsEdit.FilterDropsMentioning` | bloqueador.py:91-93 | Lines that all mention a blocked site are all dropped. |
| `HostsEdit.FilterWellFormed` | bloqueador.py:91-93 | The kept lines are still lines as `readlines` returns them. |
| `HostsEdit.FilterTerminated` | bloqueador.py:91-93 | When every line ends with a newline, so does every kept line. |
| `HostsEdit.KeptClean` | bloqueador.py:91-93 | No kept line mentions a blocked site. |
| `HostsEdit.NoSitesKeepsAll` | bloqueador.py:91-93 | With no blocked site, every line is kept. |
| `HostsEdit.Redirects` | bloqueador.py:95-96 | One redirect per blocked site, in list order. Each ends with a newline and contains its site. |
| `HostsEdit.RedirectsShape` | bloqueador.py:95-96 | Each redirect is one closed line, and it mentions the site it blocks. |
| `HostsEdit.RedirectsFilteredOut` | bloqueador.py:92-96 | The filter drops every redirect written for the blocked list, whatever the sites. |
| `HostsEdit.OneLine` | bloqueador.py:87-97 | On a single line, deactivation keeps it exactly when it mentions no blocked site. Activation then appends the redirects. |
| `HostsEdit.Deactivate` | bloqueador.py:108-115 | The deactivated hosts content reads back as exactly the original lines that mention no blocked site, in order. |
| `HostsEdit.ActivateAsWritten` | bloqueador.py:87-97 | When the hosts content ends with a newline and no blocked site holds a newline, the activated content reads back as the kept lines followed by one redirect line per blocked site, in list order. |
| `HostsEdit.KeptThenRedirects` | bloqueador.py:91-96 | Kept lines of content ending with a newline, written before the redirects of newline-free sites, read back as those lines and then the redirects. |
| `HostsEdit.Activate` | bloqueador.py:87-97 | With newline-free sites, the corrected activation reads back as the kept lines, the last one closed, followed by one redirect line per blocked site. With no blocked site the content is unchanged. |
| `HostsEdit.ClosedThenRedirects` | bloqueador.py:91-96 | The kept lines with the last one closed, written before the redirects of newline-free sites, read back as those lines and then the redirects. |
| `HostsEdit.NoSitesNoChange` | bloqueador.py:91-97 | With no blocked site, activation and deactivation leave the hosts content unchanged. |
| `HostsEdit.ActivateLines` | bloqueador.py:87-97 | The corrected activation, with newline-free sites and at least one blocked site, reads back as the kept lines (the last one closed) followed by the redirects. Filtering that again gives only the closed kept lines. |
| `HostsEdit.ActivateRedirectsOnOwnLines` | bloqueador.py:95-96 | After the corrected activation with newline-free sites, every blocked site has its redirect line among the hosts lines. The program's activation does not promise this (`HostsEdit.GluedRedirect`). |
| `HostsEdit.DeactivateClosed` | bloqueador.py:108-115 | Deactivating hosts content that ends with a newline leaves content that ends with one. |
| `HostsEdit.DeactivateIdempotent` | bloqueador.py:108-115 | Deactivating twice gives the content of deactivating once. |
| `HostsEdit.DeactivateAfterActivate` | bloqueador.py:87-115 | Deactivating after the corrected activation with newline-free sites removes every redirect and leaves the deactivated original, its last line closed. |
| `HostsEdit.ActivateIdempotent` | bloqueador.py:87-97 | The corrected activation with newline-free sites, applied twice, gives the content of applying it once, on any hosts content. |
| `HostsEdit.ActivateAgreesWhenClosed` | bloqueador.py:87-97 | When the hosts content ends with a newline, the program's activation and the corrected one write the same text, and that text ends with a newline. |
| `HostsEdit.ActivateAsWrittenIdempotent` | bloqueador.py:87-97 | For hosts content ending with a newline, the program's activation is idempotent. |
| `HostsEdit.DeactivateAfterActivateAsWritten` | bloqueador.py:87-115 | For hosts content ending with a newline, deactivating after the program's activation gives the deactivated original. |
| `HostsEdit.ActivateExample` | bloqueador.py:87-97 | Activating `127.0.0.1 localhost` with `example.com` blocked appends `127.0.0.1 example.com`. |
| `HostsEdit.DropFirstKeepSecond` | bloqueador.py:112-114 | Of two lines, where only the first mentions a blocked site, deactivation keeps just the second. |
| `HostsEdit.DeactivateExample` | bloqueador.py:108-115 | Deactivation deletes the redirect of `example.com` and keeps the localhost line. |
| `HostsEdit.GlueOnUnterminatedLine` | bloqueador.py:93-96 | On one unterminated line, the program writes the redirect onto that line. The site gets no redirect line of its own, and the next deactivation deletes the original line. |
| `HostsEdit.GluedLine` | bloqueador.py:93-96 | A redirect written after a line without its newline forms one line with it, and that line mentions the site. |
| `HostsEdit.GluedRedirect` | bloqueador.py:87-115 | The same on `127.0.0.1 localhost` without a final newline, with `a.com` blocked. |
| `HostsEdit.CloseOneLine` | bloqueador.py:87-97 | The corrected activation closes an unterminated line before the redirects. The next deactivation keeps the line. |
| `HostsEdit.ClosedRedirect` | bloqueador.py:87-97 | On that content, the corrected activation gives the localhost line and the redirect line as two lines. Deactivation then gives back the localhost line. |
| `HostsEdit.ActivateEmpty` | bloqueador.py:87-97 | The program's activation of empty hosts content writes just the redirects. |
| `HostsEdit.RedirectPieces` | bloqueador.py:96 | The redirect for `a.com` plus a newline is a line that mentions the site, then an empty line that does not. |
| `HostsEdit.NewlineSiteRedirect` | bloqueador.py:87-97 | On empty hosts content, the program's activation of a site ending with a newline writes its redirect line plus an empty line that mentions no blocked site. |
| `HostsEdit.EmptyLineStays` | bloqueador.py:91-96 | When the redirects are a mentioning line followed by one that mentions nothing, the program's activation writes the second line again in front of them. |
| `HostsEdit.NewlineSiteBreaksIdempotence` | bloqueador.py:87-97 | With `a.com` plus a newline blocked, the program's second activation adds an empty line in front, so it differs from the first. |
| `Blocker.BackupHosts` | bloqueador.py:45-47 | A backup copies the hosts content only when no snapshot exists. An existing snapshot is never refreshed. |
| `Blocker.RestoreHosts` | bloqueador.py:50-52 | Restoring copies the snapshot over the hosts content when one exists. Otherwise nothing changes. |
| `Blocker.BackupIdempotent` | bloqueador.py:45-47 | A second backup changes nothing. |
| `Blocker.BackupThenRestore` | bloqueador.py:45-52 | Restoring right after the first backup gives back the state in which it was taken. |
| `Blocker.Perform` | bloqueador.py:55-128 | Each action's outcome. A successful addition appends the entry, and a successful removal deletes its first copy. List actions touch only the list. Hosts actions touch only the hosts content and backup. A confirmed activation writes the program's activation, and a confirmed deactivation writes the deactivated content. The first of them snapshots the hosts content as it was. A confirmed activation or deactivation without permission is refused, and with permission it succeeds. A restore fails only when a backup exists and cannot be copied; with no backup it succeeds and changes nothing. An invalid entry is refused as badly formatted before any duplicate check, and a valid listed one as a duplicate. An empty selection and a selection not in the list are refused as such. Only list actions are ever refused. An existing snapshot is never replaced. |
| `Blocker.Step` | bloqueador.py:82-128 | A reported failure leaves the state as it was; a success moves to the new state. An existing snapshot is kept, and while there is none the hosts content has not changed. |
| `Blocker.Run` | bloqueador.py:55-128 | An empty sequence of actions leaves the state as it was. Over any sequence of actions an existing snapshot is kept, and while there is none the hosts content is the original. |
| `Blocker.RunAppend` | bloqueador.py:55-128 | Running two sequences of actions one after the other is running them joined. |
| `Blocker.StepKeepsListInvariant` | bloqueador.py:58-79 | Every action keeps the list valid and duplicate-free. |
| `Blocker.RunKeepsListInvariant` | bloqueador.py:55-128 | After any sequence of actions, the list holds only valid sites, each once. |
| `Blocker.StepKeepsRecoverable` | bloqueador.py:45-52 | Every action keeps the original hosts content either live or in the snapshot. |
| `Blocker.RunKeepsRecoverable` | bloqueador.py:82-128 | The same holds after any sequence of actions. |
| `Blocker.RestoreRecoversOriginal` | bloqueador.py:121-126 | Starting without a backup, a confirmed restore after any sequence of actions brings back the original hosts content. |
| `Blocker.ActivateThenRestore` | bloqueador.py:82-126 | Backup, activate, restore gives back the hosts content that was there before. |
| `Blocker.ValidSitesNewlineFree` | bloqueador.py:41-42 | Sites that the anchored check accepts contain no newline. |
| `Blocker.ActivateTwice` | bloqueador.py:82-97 | With a valid list and hosts content ending with a newline, activating twice leaves the hosts content of activating once. |
| `Blocker.ActivateTwiceGlued` | bloqueador.py:82-97 | On `127.0.0.1 localhost` without a final newline, with `a.com` blocked, the first activation glues the redirect onto that line. The second leaves only the redirect, so the two results differ. |
| `Blocker.StepCorrected` | bloqueador.py:82-97 | On hosts content ending with a newline the corrected controller reaches the program's state. With newline-free sites its activation gives every blocked site a redirect line of its own. It takes the backup as the program does. |
| `Blocker.CorrectedAgreesWhenClosed` | bloqueador.py:82-97 | On hosts content ending with a newline, the corrected controller and the program's controller reach the same state. |
| `Blocker.CorrectedActivateTwice` | bloqueador.py:82-97 | With a valid list, activating twice with the corrected controller leaves the hosts content of activating once, whatever the hosts content. |
| `Blocker.DeactivateTwice` | bloqueador.py:103-115 | Deactivating twice leaves the hosts content of deactivating once. |

## Left out

- The tkinter window, list view, buttons and message boxes are presentation
  only. The list view is taken to show the blocked list. Dialog results
  become the `Action` fields:
  - `entry: None` is a cancelled input dialog;
  - `selection: None` is an empty selection;
  - `confirmed` is the yes/no answer.
- Real file I/O is abstracted into the state record. This covers `open`,
  `shutil.copy`, `os.path.exists`, the platform's hosts path, and saving and
  loading the JSON list. The list stands for both the in-memory list and its
  JSON copy, which every change rewrites in full. Loading a missing list file
  gives an empty list.
- Exception plumbing is reduced to error results that leave the state
  unchanged:
  - the `show_error_dialog` wrapper;
  - the `PermissionError` handlers;
  - the catch-all handler of restore.
- One `privileged` flag covers writing both the hosts file and its backup,
  which live in the same directory. Partial writes, a hosts file that cannot
  be read, and other I/O failures are not modelled.
- SiteValidator.IsValidSite: the pattern reads `\w` as the ASCII word
  characters `[A-Za-z0-9_]`. Python's `\w` also matches non-ASCII letters and
  digits, so non-ASCII labels are rejected here but accepted by the program.
- SiteValidator.IsValidSiteAsWritten: the same ASCII reading of `\w`.
- SiteList.Add: checks the format with the anchored `IsValidSite`. The
  program's check also accepts a valid site followed by one newline, such as
  `example.com` plus a newline, and appends it; the model refuses it. That
  behaviour is shown by `SiteValidator.TrailingNewlineAccepted` and
  `HostsEdit.NewlineSiteBreaksIdempotence`.
- Blocker.Perform: adds sites through `SiteList.Add`, so it too refuses a site
  followed by one newline where the program appends it.
- HostsEdit.ActivateAsWritten: its line-by-line result is stated only for hosts
  content that ends with a newline and sites that hold no newline
  (`NewlineFree`). What it writes otherwise is shown by
  `HostsEdit.GlueOnUnterminatedLine`, `HostsEdit.GluedRedirect` and
  `HostsEdit.NewlineSiteRedirect`.
- Blocker.ActivateTwice: holds only for hosts content that ends with a newline.
  Without it the program's activation is not idempotent
  (`Blocker.ActivateTwiceGlued`).
- HostsEdit.DeactivateAfterActivate: deactivating after the corrected
  activation gives the same text as deactivating alone, except for the newline
  that closes the last kept line. Only the program's activation, on content
  ending with a newline, gives exactly the same text
  (`HostsEdit.DeactivateAfterActivateAsWritten`).
- Newline translation of text-mode files is not modelled. On every platform,
  reading turns `\r\n` and a lone `\r` into `\n`, and writing turns `\n`
  into the platform's line separator. The model's text is what `readlines`
  returns and what `write` is given.
- Concurrent edits of the hosts file by other programs are not modelled.

## Findings

| source | as written | input that shows it | evidently intended | confidence | as-written member | corrected member |
|---|---|---|---|---|---|---|
| bloqueador.py:91-96 | Activation writes the first redirect right after the last kept line. If that line has no final newline, the redirect ends up on the same line. | Hosts content `127.0.0.1 localhost` with no final newline, and `a.com` blocked. The result is the single line `127.0.0.1 localhost127.0.0.1 a.com`. `a.com` still resolves to `127.0.0.1` as an alias on that line, but the localhost entry now names `localhost127.0.0.1` instead of `localhost`. The next deactivation deletes the whole line, localhost entry included. | Close the last kept line before the redirects, so every redirect is a line of its own. | not executed | `HostsEdit.GluedRedirect` | `HostsEdit.ActivateRedirectsOnOwnLines` |
| bloqueador.py:41-42 | `re.match` with `$` accepts a site followed by one newline. | `example.com` followed by a newline is accepted. Blocking `a.com` plus a newline writes its redirect followed by an empty line. That empty line survives every filter, so each activation adds another one (`HostsEdit.NewlineSiteBreaksIdempotence`). | Anchor at the end of the input (`\Z` or `re.fullmatch`), so nothing may follow the top-level part. | not executed | `SiteValidator.TrailingNewlineAccepted` | `Blocker.ActivateTwice` |

=== FILE: blocker.dfy ===
/**
 * The blocker's controller (bloqueador.py:44-128): the blocked list, the live
 * hosts content and the one backup snapshot, changed by the five user actions.
 * Files are abstracted to the values they hold; the list stands for both the
 * in-memory list and its JSON copy, which every change rewrites in full.
 */
module Blocker {
  import opened Wrappers
  import opened SiteValidator
  import opened SiteList
  import opened HostsEdit
  import TextLines

  /** The hosts content, the backup file's content if it exists, and the blocked list. */
  datatype State = State(hosts: string, backup: Option<string>, sites: seq<string>)

  /** What an action can report instead of succeeding. */
  datatype ActionError =
    | Refused(reason: ListError)  // a warning about the typed-in or selected site
    | PermissionDenied            // the hosts file (or its backup) could not be written
    | RestoreFailed               // copying the backup over the hosts file failed

  /**
   * The user actions. `None` as an entry is a cancelled input dialog, as a
   * selection an empty one; `confirmed` is the answer to the yes/no question
   * and `privileged` whether the process may write the hosts file's directory.
   */
  datatype Action =
    | AddSite(entry: Option<string>)
    | RemoveSite(selection: Option<string>)
    | ActivateBlocker(confirmed: bool, privileged: bool)
    | DeactivateBlocker(confirmed: bool, privileged: bool)
    | RestoreOriginal(confirmed: bool, privileged: bool)

  /** `backup_hosts`: snapshot the hosts content unless a snapshot already exists. */
  function BackupHosts(st: State): (r: State)
    ensures r.hosts == st.hosts && r.sites == st.sites && r.backup.Some?
    ensures st.backup.Some? ==> r == st
    ensures st.backup.None? ==> r.backup.value == st.hosts
  {
    if st.backup.None? then st.(backup := Some(st.hosts)) else st
  }

  /** `restore_hosts_backup`: copy the snapshot over the hosts content if there is one. */
  function RestoreHosts(st: State): (r: State)
    ensures r.backup == st.backup && r.sites == st.sites
    ensures st.backup.Some? ==> r.hosts == st.backup.value
    ensures st.backup.None? ==> r == st
  {
    match st.backup
    case Some(snapshot) => st.(hosts := snapshot)
    case None => st
  }

  /** Taking a second backup changes nothing: the first snapshot is never refreshed. */
  lemma BackupIdempotent(st: State)
    ensures BackupHosts(BackupHosts(st)) == BackupHosts(st)
    ensures BackupHosts(st).backup == if st.backup.None? then Some(st.hosts) else st.backup
  {
  }

  /** Restoring right after a first backup gives the state the backup was taken in, snapshot kept. */
  lemma BackupThenRestore(st: State)
    requires st.backup.None?
    ensures RestoreHosts(BackupHosts(st)) == st.(backup := Some(st.hosts))
  {
  }

  /** One user action; a failure leaves the state as it was and is reported to the user. */
  function Perform(st: State, action: Action): (r: Result<State, ActionError>)
    ensures r.Success? && (action.AddSite? || action.RemoveSite?) ==>
      r.value.hosts == st.hosts && r.value.backup == st.backup
    ensures r.Success? && !(action.AddSite? || action.RemoveSite?) ==> r.value.sites == st.sites
    ensures r.Success? && st.backup.Some? ==> r.value.backup == st.backup
    ensures r == Failure(PermissionDenied) <==>
      (action.ActivateBlocker? || action.DeactivateBlocker?) && action.confirmed && !action.privileged
    ensures r == Failure(RestoreFailed) <==>
      action.RestoreOriginal? && action.confirmed && !action.privileged && st.backup.Some?
    ensures action.AddSite? && action.entry.Some? ==>
      (r.Success? <==> IsValidSite(action.entry.value) && action.entry.value !in st.sites)
    ensures r.Failure? && r.error.Refused? ==> action.AddSite? || action.RemoveSite?
    ensures action.AddSite? && action.entry.None? ==> r == Failure(Refused(InvalidFormat))
    ensures action.AddSite? && action.entry.Some? && !IsValidSite(action.entry.value) ==>
      r == Failure(Refused(InvalidFormat))
    ensures (action.AddSite? && action.entry.Some? && IsValidSite(action.entry.value) &&
      action.entry.value in st.sites) ==> r == Failure(Refused(Duplicate))
    ensures r.Success? && action.AddSite? ==>
      action.entry.Some? && r.value.sites == st.sites + [action.entry.value]
    ensures action.RemoveSite? ==>
      (r.Success? <==> action.selection.Some? && action.selection.value in st.sites)
    ensures action.RemoveSite? && action.selection.None? ==> r == Failure(Refused(NotSelected))
    ensures action.RemoveSite? && action.selection.Some? && action.selection.value !in st.sites ==>
      r == Failure(Refused(NotInList))
    ensures r.Success? && action.RemoveSite? ==>
      action.selection.Some? && r.value.sites == RemoveFirst(st.sites, action.selection.value)
    ensures r.Success? && action.ActivateBlocker? && action.confirmed ==>
      r.value.hosts == ActivateAsWritten(st.hosts, st.sites) && r.value.backup.Some?
    ensures r.Success? && action.DeactivateBlocker? && action.confirmed ==>
      r.value.hosts == Deactivate(st.hosts, st.sites) && r.value.backup.Some?
    ensures (r.Success? && (action.ActivateBlocker? || action.DeactivateBlocker?) && action.confirmed &&
      st.backup.None?) ==> r.value.backup == Some(st.hosts)
    ensures r.Success? && action.RestoreOriginal? && action.confirmed && st.backup.Some? ==>
      r.value.hosts == st.backup.value
    ensures !(action.AddSite? || action.RemoveSite?) && !action.confirmed ==> r == Success(st)
    ensures !(action.AddSite? || action.RemoveSite?) && action.privileged ==> r.Success?
    ensures action.RestoreOriginal? && st.backup.None? ==> r == Success(st)
  {
    match action
    case AddSite(entry) =>
      if entry.None? then Failure(Refused(InvalidFormat))
      else
        (match Add(st.sites, entry.value)
         case Success(sites) => Success(st.(sites := sites))
         case Failure(e) => Failure(Refused(e)))
    case RemoveSite(selection) =>
      (match Remove(st.sites, selection)
       case Success(sites) => Success(st.(sites := sites))
       case Failure(e) => Failure(Refused(e)))
    case ActivateBlocker(confirmed, privileged) =>
      if !confirmed then Success(st)
      else if !privileged then Failure(PermissionDenied)
      else
        var b := BackupHosts(st);
        Success(b.(hosts := ActivateAsWritten(b.hosts, b.sites)))
    case DeactivateBlocker(confirmed, privileged) =>
      if !confirmed then Success(st)
      else if !privileged then Failure(PermissionDenied)
      else
        var b := BackupHosts(st);
        Success(b.(hosts := Deactivate(b.hosts, b.sites)))
    case RestoreOriginal(confirmed, privileged) =>
      if !confirmed || st.backup.None? then Success(st)
      else if !privileged then Failure(RestoreFailed)
      else Success(RestoreHosts(st))
  }

  /** The state after an action, whether it succeeded or was reported as failed. */
  function Step(st: State, action: Action): (next: State)
    ensures Perform(st, action).Failure? ==> next == st
    ensures Perform(st, action).Success? ==> next == Perform(st, action).value
    ensures st.backup.Some? ==> next.backup == st.backup
    ensures next.backup.None? ==> st.backup.None? && next.hosts == st.hosts
  {
    match Perform(st, action)
    case Success(next) => next
    case Failure(_) => st
  }

  /** The state after a sequence of actions, performed one after another. */
  function Run(st: State, actions: seq<Action>): (last: State)
    ensures actions == [] ==> last == st
    ensures st.backup.Some? ==> last.backup == st.backup
    ensures last.backup.None? ==> st.backup.None? && last.hosts == st.hosts
    decreases |actions|
  {
    if actions == [] then st else Run(Step(st, actions[0]), actions[1..])
  }

  /** Running two sequences of actions one after the other is running them joined. */
  lemma {:induction false} RunAppend(st: State, first: seq<Action>, second: seq<Action>)
    ensures Run(st, first + second) == Run(Run(st, first), second)
    decreases |first|
  {
    if first != [] {
      assert (first + second)[0] == first[0];
      assert (first + second)[1..] == first[1..] + second;
      RunAppend(Step(st, first[0]), first[1..], second);
    } else {
      assert first + second == second;
    }
  }

  /*** The blocked list stays valid and free of duplicates ***/

  predicate ListInvariant(st: State) {
    NoDuplicates(st.sites) && AllValid(st.sites)
  }

  lemma StepKeepsListInvariant(st: State, action: Action)
    requires ListInvariant(st)
    ensures ListInvariant(Step(st, action))
  {
    match action
    case AddSite(entry) =>
      if entry.Some? {
        AddKeepsInvariant(st.sites, entry.value);
      }
    case RemoveSite(selection) =>
      if selection.Some? && selection.value in st.sites {
        RemoveFromDistinct(st.sites, selection.value);
      }
    case _ =>
  }

  /** Whatever the user does, the blocked list holds only valid sites, each once. */
  lemma {:induction false} RunKeepsListInvariant(st: State, actions: seq<Action>)
    requires ListInvariant(st)
    ensures ListInvariant(Run(st, actions))
    decreases |actions|
  {
    if actions != [] {
      StepKeepsListInvariant(st, actions[0]);
      RunKeepsListInvariant(Step(st, actions[0]), actions[1..]);
    }
  }

  /*** The original hosts content can always be restored ***/

  /** The original content is either still the live hosts content or kept as the snapshot. */
  predicate Recoverable(st: State, original: string) {
    match st.backup
    case None => st.hosts == original
    case Some(snapshot) => snapshot == original
  }

  lemma StepKeepsRecoverable(st: State, action: Action, original: string)
    requires Recoverable(st, original)
    ensures Recoverable(Step(st, action), original)
  {
  }

  lemma {:induction false} RunKeepsRecoverable(st: State, actions: seq<Action>, original: string)
    requires Recoverable(st, original)
    ensures Recoverable(Run(st, actions), original)
    decreases |actions|
  {
    if actions != [] {
      StepKeepsRecoverable(st, actions[0], original);
      RunKeepsRecoverable(Step(st, actions[0]), actions[1..], original);
    }
  }

  /**
   * Starting without a backup, after any sequence of actions a confirmed,
   * privileged restore brings back the hosts content the program started with.
   */
  lemma RestoreRecoversOriginal(st: State, actions: seq<Action>)
    requires st.backup.None?
    ensures Step(Run(st, actions), RestoreOriginal(true, true)).hosts == st.hosts
  {
    RunKeepsRecoverable(st, actions, st.hosts);
  }

  /** Backup, activate, restore: the hosts content is back to what it was. */
  lemma ActivateThenRestore(st: State)
    requires st.backup.None?
    ensures var activated := Step(st, ActivateBlocker(true, true));
      && activated.backup == Some(st.hosts)
      && activated.hosts == ActivateAsWritten(st.hosts, st.sites)
      && Step(activated, RestoreOriginal(true, true)).hosts == st.hosts
  {
  }

  /*** Activation is idempotent on the hosts content ***/

  lemma ValidSitesNewlineFree(sites: seq<string>)
    requires AllValid(sites)
    ensures NewlineFree(sites)
  {
    forall i | 0 <= i < |sites| ensures TextLines.NL !in sites[i] {
      ValidSiteRejects(sites[i]);
    }
  }

  /**
   * With a valid blocked list and hosts content that ends with a newline,
   * activating twice leaves the hosts content of activating once.
   */
  lemma ActivateTwice(st: State, privileged: bool)
    requires ListInvariant(st) && TextLines.EndsClosed(st.hosts)
    ensures var once := Step(st, ActivateBlocker(true, privileged));
      Step(once, ActivateBlocker(true, privileged)).hosts == once.hosts
  {
    ValidSitesNewlineFree(st.sites);
    ActivateAsWrittenIdempotent(st.hosts, st.sites);
  }

  /**
   * Without the final newline the program's activation is not idempotent:
   * the first activation glues the redirect onto the localhost entry, so the
   * second one drops that line and leaves only the redirect.
   */
  lemma ActivateTwiceGlued(st: State)
    requires st.hosts == "127.0.0.1 localhost" && st.sites == ["a.com"]
    ensures ListInvariant(st)
    ensures var once := Step(st, ActivateBlocker(true, true));
      && once.hosts == st.hosts + RedirectLine(st.sites[0])
      && Step(once, ActivateBlocker(true, true)).hosts == RedirectLine(st.sites[0])
      && Step(once, ActivateBlocker(true, true)).hosts != once.hosts
  {
    var site := st.sites[0];
    AcceptedSample(site);
    GlueOnUnterminatedLine(st.hosts, site) by {
      UnterminatedLocalhost(st.hosts, st.sites);
    }
    OneRedirect(site);
    assert |st.hosts + RedirectLine(site)| != |RedirectLine(site)|;
  }

  /** `a.com` is a valid site. */
  lemma AcceptedSample(site: string)
    requires site == "a.com"
    ensures IsValidSite(site) && ScanSite(site)
  {
    assert IsTld("com");
    assert ScanLabel(".com");
    assert ScanLabel("a.com");
  }

  /**
   * The controller with the corrected activation, which closes the last kept
   * line before writing the redirects; every other action is as in `Step`.
   */
  function StepCorrected(st: State, action: Action): (next: State)
    ensures TextLines.EndsClosed(st.hosts) ==> next == Step(st, action)
    ensures action.ActivateBlocker? && action.confirmed && action.privileged && NewlineFree(st.sites) ==>
      forall i :: 0 <= i < |st.sites| ==> RedirectLine(st.sites[i]) in TextLines.SplitLines(next.hosts)
    ensures action.ActivateBlocker? && action.confirmed && action.privileged ==>
      next.hosts == Activate(st.hosts, st.sites) && next.sites == st.sites
      && next.backup == Some(if st.backup.None? then st.hosts else st.backup.value)
    ensures !(action.ActivateBlocker? && action.confirmed && action.privileged) ==>
      next == Step(st, action)
  {
    if action.ActivateBlocker? && action.confirmed && action.privileged then
      var b := BackupHosts(st);
      ActivateAgreesWhenClosed(st.hosts, st.sites);
      ActivateRedirectsOnOwnLines(st.hosts, st.sites);
      b.(hosts := Activate(b.hosts, b.sites))
    else Step(st, action)
  }

  /** On hosts content that ends with a newline both controllers activate alike. */
  lemma CorrectedAgreesWhenClosed(st: State, action: Action)
    requires TextLines.EndsClosed(st.hosts)
    ensures StepCorrected(st, action) == Step(st, action)
  {
    if action.ActivateBlocker? && action.confirmed && action.privileged {
      ActivateAgreesWhenClosed(st.hosts, st.sites);
    }
  }

  /** With the corrected activation, activating twice is activating once, whatever the hosts content. */
  lemma CorrectedActivateTwice(st: State, privileged: bool)
    requires ListInvariant(st)
    ensures var once := StepCorrected(st, ActivateBlocker(true, privileged));
      StepCorrected(once, ActivateBlocker(true, privileged)).hosts == once.hosts
  {
    ValidSitesNewlineFree(st.sites);
    ActivateIdempotent(st.hosts, st.sites);
  }

  /** Deactivating twice leaves the hosts content of deactivating once. */
  lemma DeactivateTwice(st: State, privileged: bool)
    ensures var once := Step(st, DeactivateBlocker(true, privileged));
      Step(once, DeactivateBlocker(true, privileged)).hosts == once.hosts
  {
    DeactivateIdempotent(st.hosts, st.sites);
  }
}

=== FILE: hosts_edit.dfy ===
/**
 * The hosts-file rewrite shared by activation and deactivation
 * (bloqueador.py:87-97, 108-115): the file is read as lines, every line that
 * contains a blocked site as a substring is dropped, and activation then
 * appends one redirect line per blocked site. The truncation after writing
 * makes the new content exactly what was written.
 */
module HostsEdit {
  import opened TextLines
  import opened Subsequences

  /** The address blocked sites are sent to. */
  const Redirect: string := "127.0.0.1"

  /**
   * Whether some blocked site occurs in the line as a substring, which holds
   * exactly when some blocked site starts at some position of the line.
   */
  predicate Mentions(line: string, sites: seq<string>): (m: bool)
    ensures m <==> exists k, i :: 0 <= k < |sites| && 0 <= i <= |line| && sites[k] <= line[i..]
  {
    MentionsAt(line, sites);
    exists s :: s in sites && Contains(line, s)
  }

  lemma MentionsAt(line: string, sites: seq<string>)
    ensures (exists s :: s in sites && Contains(line, s)) <==>
      exists k, i :: 0 <= k < |sites| && 0 <= i <= |line| && sites[k] <= line[i..]
  {
    if exists s :: s in sites && Contains(line, s) {
      var s :| s in sites && Contains(line, s);
      var k :| 0 <= k < |sites| && sites[k] == s;
      ContainsIff(line, s);
      var i :| 0 <= i <= |line| && s <= line[i..];
      assert sites[k] <= line[i..];
    }
    if exists k, i :: 0 <= k < |sites| && 0 <= i <= |line| && sites[k] <= line[i..] {
      var k, i :| 0 <= k < |sites| && 0 <= i <= |line| && sites[k] <= line[i..];
      ContainsAt(line, sites[k], i);
      assert sites[k] in sites;
    }
  }

  /** No line mentions a blocked site. */
  predicate Clean(lines: seq<string>, sites: seq<string>) {
    forall i :: 0 <= i < |lines| ==> !Mentions(lines[i], sites)
  }

  /** No blocked site contains a newline, as holds for every site the validator accepts. */
  predicate NewlineFree(sites: seq<string>) {
    forall i :: 0 <= i < |sites| ==> NL !in sites[i]
  }

  /** The lines that mention no blocked site, in their original order. */
  function Filter(lines: seq<string>, sites: seq<string>): (kept: seq<string>)
    ensures forall l :: l in kept ==> l in lines && !Mentions(l, sites)
    ensures forall l :: l in lines && !Mentions(l, sites) ==> l in kept
    ensures IsSubsequence(kept, lines)
  {
    if lines == [] then []
    else
      var rest := Filter(lines[1..], sites);
      assert lines == [lines[0]] + lines[1..];
      SubsequenceCons(lines[0], rest, lines[1..]);
      if Mentions(lines[0], sites) then rest else [lines[0]] + rest
  }

  /** A line that mentions no blocked site is kept as often as it occurs; any other line never. */
  lemma {:induction false} FilterCounts(lines: seq<string>, sites: seq<string>)
    ensures forall l ::
      multiset(Filter(lines, sites))[l] == (if Mentions(l, sites) then 0 else multiset(lines)[l])
  {
    if lines != [] {
      FilterCounts(lines[1..], sites);
      assert lines == [lines[0]] + lines[1..];
    }
  }

  lemma {:induction false} FilterAppend(a: seq<string>, b: seq<string>, sites: seq<string>)
    ensures Filter(a + b, sites) == Filter(a, sites) + Filter(b, sites)
    decreases |a|
  {
    if a == [] {
      assert a + b == b;
    } else {
      assert (a + b)[1..] == a[1..] + b;
      FilterAppend(a[1..], b, sites);
    }
  }

  /** Lines that mention no blocked site all pass the filter. */
  lemma {:induction false} FilterKeepsClean(lines: seq<string>, sites: seq<string>)
    requires Clean(lines, sites)
    ensures Filter(lines, sites) == lines
  {
    if lines != [] {
      FilterKeepsClean(lines[1..], sites);
    }
  }

  /** Lines that all mention a blocked site are all dropped. */
  lemma {:induction false} FilterDropsMentioning(lines: seq<string>, sites: seq<string>)
    requires forall i :: 0 <= i < |lines| ==> Mentions(lines[i], sites)
    ensures Filter(lines, sites) == []
  {
    if lines != [] {
      FilterDropsMentioning(lines[1..], sites);
    }
  }

  /** The filter keeps the shape of a `readlines` result. */
  lemma {:induction false} FilterWellFormed(lines: seq<string>, sites: seq<string>)
    requires WellFormed(lines)
    ensures WellFormed(Filter(lines, sites))
  {
    var kept := Filter(lines, sites);
    if lines != [] {
      var rest := lines[1..];
      assert WellFormed(rest) by {
        forall i | 0 <= i < |rest| - 1 ensures Terminated(rest[i]) {
          assert rest[i] == lines[i + 1];
        }
      }
      FilterWellFormed(rest, sites);
      forall i | 0 <= i < |kept| ensures IsLine(kept[i]) {
        assert kept[i] in lines;
      }
    }
  }

  lemma FilterTerminated(lines: seq<string>, sites: seq<string>)
    requires AllTerminated(lines)
    ensures AllTerminated(Filter(lines, sites))
  {
    var kept := Filter(lines, sites);
    forall i | 0 <= i < |kept| ensures Terminated(kept[i]) {
      assert kept[i] in lines;
    }
  }

  /**
   * The redirect written for one blocked site: the address, a space, the site
   * and a newline. It is closed and mentions the site; it is a single line
   * when the site holds no newline.
   */
  function RedirectLine(site: string): (line: string)
    ensures Terminated(line) && Contains(line, site)
    ensures NL !in site ==> IsLine(line)
  {
    ContainsMiddle(Redirect + " ", site, [NL]);
    CloseLine(Redirect + " " + site);
    Redirect + " " + site + [NL]
  }

  function Redirects(sites: seq<string>): (lines: seq<string>)
    ensures |lines| == |sites|
    ensures forall i :: 0 <= i < |sites| ==> Terminated(lines[i]) && Contains(lines[i], sites[i])
  {
    seq(|sites|, i requires 0 <= i < |sites| => RedirectLine(sites[i]))
  }

  /** Each redirect line is one complete line, and it mentions its own site. */
  lemma RedirectsShape(sites: seq<string>)
    requires NewlineFree(sites)
    ensures WellFormed(Redirects(sites)) && AllTerminated(Redirects(sites))
    ensures forall i :: 0 <= i < |sites| ==> Mentions(Redirects(sites)[i], sites)
  {
    var r := Redirects(sites);
    forall i | 0 <= i < |sites| ensures IsLine(r[i]) && Terminated(r[i]) && Mentions(r[i], sites) {
      assert r[i] == RedirectLine(sites[i]);
    }
  }

  /** The text with a newline added when it is not empty and does not already end with one. */
  function Terminate(text: string): string {
    if EndsClosed(text) then text else text + [NL]
  }

  /** The same at the level of lines: the last line gets its newline. */
  function CloseLast(lines: seq<string>): seq<string> {
    if lines == [] || Terminated(lines[|lines| - 1]) then lines
    else lines[..|lines| - 1] + [lines[|lines| - 1] + [NL]]
  }

  lemma ConcatCloseLast(lines: seq<string>)
    requires WellFormed(lines)
    ensures Concat(CloseLast(lines)) == Terminate(Concat(lines))
  {
    if lines != [] {
      var n := |lines| - 1;
      var last := lines[n];
      assert lines == lines[..n] + [last];
      ConcatAppend(lines[..n], [last]);
      assert Concat([last]) == last;
      if !Terminated(last) {
        ConcatAppend(lines[..n], [last + [NL]]);
        assert Concat([last + [NL]]) == last + [NL];
        assert (Concat(lines[..n]) + last)[|Concat(lines)| - 1] == last[|last| - 1];
      } else {
        ConcatClosed([last]);
      }
    }
  }

  lemma CloseLastWellFormed(lines: seq<string>)
    requires WellFormed(lines)
    ensures |CloseLast(lines)| == |lines|
    ensures WellFormed(CloseLast(lines)) && AllTerminated(CloseLast(lines))
  {
    if lines != [] && !Terminated(lines[|lines| - 1]) {
      var n := |lines| - 1;
      var c := CloseLast(lines);
      assert IsLine(c[n]) by {
        forall j | 0 <= j < |c[n]| - 1 ensures c[n][j] != NL {
          assert c[n][j] == lines[n][j];
        }
      }
      forall i | 0 <= i < n ensures c[i] == lines[i] {
      }
    }
  }

  lemma CloseLastClean(lines: seq<string>, sites: seq<string>)
    requires NewlineFree(sites) && Clean(lines, sites)
    ensures Clean(CloseLast(lines), sites)
  {
    if lines != [] && !Terminated(lines[|lines| - 1]) {
      var n := |lines| - 1;
      var c := CloseLast(lines);
      forall s | s in sites ensures !Contains(c[n], s) {
        var k :| 0 <= k < |sites| && sites[k] == s;
        ContainsAppendNewline(lines[n], s);
      }
      forall i | 0 <= i < n ensures c[i] == lines[i] {
      }
    }
  }

  /*** The two rewrites ***/

  /** Deactivation: the hosts content with every line that mentions a blocked site removed. */
  function Deactivate(hosts: string, sites: seq<string>): (out: string)
    ensures SplitLines(out) == Filter(SplitLines(hosts), sites)
  {
    var kept := Filter(SplitLines(hosts), sites);
    FilterWellFormed(SplitLines(hosts), sites);
    SplitConcat(kept);
    Concat(kept)
  }

  /**
   * Activation as the program performs it: the kept lines, then one redirect
   * line per blocked site. When the last kept line has no newline, the first
   * redirect is written onto the end of it.
   */
  function ActivateAsWritten(hosts: string, sites: seq<string>): (out: string)
    ensures EndsClosed(hosts) && NewlineFree(sites) ==>
      SplitLines(out) == Filter(SplitLines(hosts), sites) + Redirects(sites)
  {
    KeptThenRedirects(hosts, sites);
    Deactivate(hosts, sites) + Concat(Redirects(sites))
  }

  /** On closed hosts content, the kept lines and the redirects read back as written. */
  lemma KeptThenRedirects(hosts: string, sites: seq<string>)
    ensures EndsClosed(hosts) && NewlineFree(sites) ==>
      SplitLines(Deactivate(hosts, sites) + Concat(Redirects(sites)))
        == Filter(SplitLines(hosts), sites) + Redirects(sites)
  {
    if EndsClosed(hosts) && NewlineFree(sites) {
      var kept := Filter(SplitLines(hosts), sites);
      SplitClosed(hosts);
      FilterTerminated(SplitLines(hosts), sites);
      FilterWellFormed(SplitLines(hosts), sites);
      RedirectsShape(sites);
      WellFormedAppend(kept, Redirects(sites));
      ConcatAppend(kept, Redirects(sites));
      SplitConcat(kept + Redirects(sites));
    }
  }

  /**
   * Activation with the last kept line closed before any redirect is written,
   * so that every redirect stands on a line of its own: the result reads back
   * as the kept lines, the last one closed, then the redirects. With no
   * blocked site the content is left as it is.
   */
  function Activate(hosts: string, sites: seq<string>): (out: string)
    ensures NewlineFree(sites) && sites != [] ==>
      SplitLines(out) == CloseLast(Filter(SplitLines(hosts), sites)) + Redirects(sites)
    ensures sites == [] ==> out == hosts
  {
    var kept := Deactivate(hosts, sites);
    ClosedThenRedirects(hosts, sites);
    NoSitesKeepsAll(SplitLines(hosts));
    (if sites == [] then kept else Terminate(kept)) + Concat(Redirects(sites))
  }

  /** The kept lines with the last one closed, then the redirects, read back as written. */
  lemma ClosedThenRedirects(hosts: string, sites: seq<string>)
    ensures NewlineFree(sites) ==>
      SplitLines(Terminate(Deactivate(hosts, sites)) + Concat(Redirects(sites)))
        == CloseLast(Filter(SplitLines(hosts), sites)) + Redirects(sites)
  {
    if NewlineFree(sites) {
      var kept := Filter(SplitLines(hosts), sites);
      var closed := CloseLast(kept);
      var rs := Redirects(sites);
      FilterWellFormed(SplitLines(hosts), sites);
      ConcatCloseLast(kept);
      CloseLastWellFormed(kept);
      RedirectsShape(sites);
      ConcatAppend(closed, rs);
      WellFormedAppend(closed, rs);
      SplitConcat(closed + rs);
    }
  }

  /*** Properties of the rewrites ***/

  lemma {:induction false} NoSitesKeepsAll(lines: seq<string>)
    ensures Filter(lines, []) == lines
  {
    if lines != [] {
      NoSitesKeepsAll(lines[1..]);
    }
  }

  /** With no blocked site, neither rewrite changes the hosts content. */
  lemma NoSitesNoChange(hosts: string)
    ensures Deactivate(hosts, []) == hosts
    ensures Activate(hosts, []) == hosts
    ensures ActivateAsWritten(hosts, []) == hosts
  {
    NoSitesKeepsAll(SplitLines(hosts));
  }

  lemma KeptClean(hosts: string, sites: seq<string>)
    ensures Clean(Filter(SplitLines(hosts), sites), sites)
  {
    var kept := Filter(SplitLines(hosts), sites);
    forall i | 0 <= i < |kept| ensures !Mentions(kept[i], sites) {
      assert kept[i] in kept;
    }
  }

  lemma RedirectsFilteredOut(sites: seq<string>)
    ensures Filter(Redirects(sites), sites) == []
  {
    var r := Redirects(sites);
    forall i | 0 <= i < |r| ensures Mentions(r[i], sites) {
      assert r[i] == RedirectLine(sites[i]);
    }
    FilterDropsMentioning(r, sites);
  }

  /** The kept lines, closed, followed by the redirect lines, is what activation writes. */
  lemma ActivateLines(hosts: string, sites: seq<string>)
    requires NewlineFree(sites) && sites != []
    ensures var kept := Filter(SplitLines(hosts), sites);
      && SplitLines(Activate(hosts, sites)) == CloseLast(kept) + Redirects(sites)
      && Filter(SplitLines(Activate(hosts, sites)), sites) == CloseLast(kept)
      && Concat(CloseLast(kept)) == Terminate(Deactivate(hosts, sites))
  {
    var kept := Filter(SplitLines(hosts), sites);
    var closed := CloseLast(kept);
    var rs := Redirects(sites);
    FilterWellFormed(SplitLines(hosts), sites);
    KeptClean(hosts, sites);
    ConcatCloseLast(kept);
    CloseLastClean(kept, sites);
    FilterAppend(closed, rs, sites);
    FilterKeepsClean(closed, sites);
    RedirectsFilteredOut(sites);
  }

  /** Lines followed by the redirects hold the redirect line of every blocked site. */
  lemma RedirectsAtEnd(front: seq<string>, sites: seq<string>)
    ensures forall i :: 0 <= i < |sites| ==> RedirectLine(sites[i]) in front + Redirects(sites)
  {
    var lines := front + Redirects(sites);
    forall i | 0 <= i < |sites| ensures RedirectLine(sites[i]) in lines {
      assert lines[|front| + i] == RedirectLine(sites[i]);
    }
  }

  /** Every blocked site gets a redirect line of its own in the activated hosts content. */
  lemma ActivateRedirectsOnOwnLines(hosts: string, sites: seq<string>)
    ensures NewlineFree(sites) ==>
      forall i :: 0 <= i < |sites| ==> RedirectLine(sites[i]) in SplitLines(Activate(hosts, sites))
  {
    if NewlineFree(sites) && sites != [] {
      ActivateLines(hosts, sites);
      RedirectsAtEnd(CloseLast(Filter(SplitLines(hosts), sites)), sites);
    }
  }

  /** Deactivating twice is the same as deactivating once. */
  lemma DeactivateIdempotent(hosts: string, sites: seq<string>)
    ensures Deactivate(Deactivate(hosts, sites), sites) == Deactivate(hosts, sites)
  {
    KeptClean(hosts, sites);
    FilterKeepsClean(Filter(SplitLines(hosts), sites), sites);
  }

  /**
   * Deactivating after activating removes all the redirects and gives the
   * deactivated content, with at most a newline added to close its last line.
   */
  lemma DeactivateAfterActivate(hosts: string, sites: seq<string>)
    requires NewlineFree(sites)
    ensures Deactivate(Activate(hosts, sites), sites) ==
      if sites == [] then Deactivate(hosts, sites) else Terminate(Deactivate(hosts, sites))
  {
    if sites == [] {
      NoSitesNoChange(hosts);
    } else {
      ActivateLines(hosts, sites);
    }
  }

  /** Activating twice is the same as activating once. */
  lemma ActivateIdempotent(hosts: string, sites: seq<string>)
    requires NewlineFree(sites)
    ensures Activate(Activate(hosts, sites), sites) == Activate(hosts, sites)
  {
    if sites == [] {
      NoSitesNoChange(hosts);
      NoSitesNoChange(Activate(hosts, sites));
    } else {
      DeactivateAfterActivate(hosts, sites);
    }
  }

  /** When the hosts content ends with a newline, both activations write the same content. */
  lemma ActivateAgreesWhenClosed(hosts: string, sites: seq<string>)
    ensures EndsClosed(hosts) ==> Activate(hosts, sites) == ActivateAsWritten(hosts, sites)
    ensures EndsClosed(hosts) ==> EndsClosed(Activate(hosts, sites))
  {
    if EndsClosed(hosts) {
      var kept := Deactivate(hosts, sites);
      DeactivateClosed(hosts, sites);
      assert Terminate(kept) == kept;
      ConcatClosed(Redirects(sites));
      ClosedAppend(kept, Concat(Redirects(sites)));
    }
  }

  /** Deactivating hosts content that ends with a newline leaves content that ends with one. */
  lemma DeactivateClosed(hosts: string, sites: seq<string>)
    requires EndsClosed(hosts)
    ensures EndsClosed(Deactivate(hosts, sites))
  {
    SplitClosed(hosts);
    FilterTerminated(SplitLines(hosts), sites);
    ConcatClosed(Filter(SplitLines(hosts), sites));
  }

  /** Two texts that end with a newline, written one after the other, end with one. */
  lemma ClosedAppend(a: string, b: string)
    requires EndsClosed(a) && EndsClosed(b)
    ensures EndsClosed(a + b)
  {
    if b == [] {
      assert a + b == a;
    } else {
      assert (a + b)[|a + b| - 1] == b[|b| - 1];
    }
  }

  /** The program's activation is idempotent on hosts content that ends with a newline. */
  lemma ActivateAsWrittenIdempotent(hosts: string, sites: seq<string>)
    requires EndsClosed(hosts) && NewlineFree(sites)
    ensures ActivateAsWritten(ActivateAsWritten(hosts, sites), sites) == ActivateAsWritten(hosts, sites)
  {
    ActivateAgreesWhenClosed(hosts, sites);
    ActivateAgreesWhenClosed(Activate(hosts, sites), sites);
    ActivateIdempotent(hosts, sites);
  }

  /** On hosts content that ends with a newline, deactivating after the program's activation equals deactivating alone. */
  lemma DeactivateAfterActivateAsWritten(hosts: string, sites: seq<string>)
    requires EndsClosed(hosts) && NewlineFree(sites)
    ensures Deactivate(ActivateAsWritten(hosts, sites), sites) == Deactivate(hosts, sites)
  {
    ActivateAgreesWhenClosed(hosts, sites);
    DeactivateAfterActivate(hosts, sites);
    SplitClosed(hosts);
    FilterTerminated(SplitLines(hosts), sites);
    ConcatClosed(Filter(SplitLines(hosts), sites));
  }

  /*** Examples ***/

  /** Rewriting hosts content of a single line. */
  lemma OneLine(line: string, sites: seq<string>)
    requires IsLine(line)
    ensures Deactivate(line, sites) == if Mentions(line, sites) then [] else line
    ensures ActivateAsWritten(line, sites) == Deactivate(line, sites) + Concat(Redirects(sites))
  {
    SplitOneLine(line);
    assert Filter([line], sites) == Filter([], sites) + (if Mentions(line, sites) then [] else [line]);
    assert Concat([line]) == line;
  }

  lemma OneRedirect(site: string)
    ensures Concat(Redirects([site])) == RedirectLine(site)
  {
    assert Redirects([site]) == [RedirectLine(site)];
  }

  /** A line with a character that the blocked site lacks does not mention it. */
  lemma NotMentioned(line: string, site: string, c: char)
    requires c in site && c !in line
    ensures !Mentions(line, [site])
  {
    if Contains(line, site) {
      ContainsChars(line, site);
    }
  }

  /** A single line that mentions no blocked site is kept, and the redirects follow it. */
  lemma KeepOneLine(line: string, sites: seq<string>)
    requires IsLine(line) && !Mentions(line, sites)
    ensures Deactivate(line, sites) == line
    ensures ActivateAsWritten(line, sites) == line + Concat(Redirects(sites))
  {
    OneLine(line, sites);
  }

  lemma LocalhostLine(line: string, sites: seq<string>)
    requires line == "127.0.0.1 localhost\n" && sites == ["example.com"]
    ensures IsLine(line) && Terminated(line) && !Mentions(line, sites)
  {
    NotMentioned(line, "example.com", 'x');
  }

  /** The localhost entry survives activation, and the blocked site's redirect is appended after it. */
  lemma ActivateExample(hosts: string, sites: seq<string>)
    requires hosts == "127.0.0.1 localhost\n" && sites == ["example.com"]
    ensures ActivateAsWritten(hosts, sites) == hosts + RedirectLine(sites[0])
    ensures RedirectLine(sites[0]) == "127.0.0.1 example.com\n"
  {
    LocalhostLine(hosts, sites);
    KeepOneLine(hosts, sites);
    OneRedirect(sites[0]);
    ExampleRedirect(sites[0]);
  }

  lemma ExampleRedirect(site: string)
    requires site == "example.com"
    ensures RedirectLine(site) == "127.0.0.1 example.com\n"
  {
  }

  lemma BlockedLineDropped(line: string, sites: seq<string>)
    requires line == "127.0.0.1 example.com\n" && sites == ["example.com"]
    ensures IsLine(line) && Terminated(line) && Mentions(line, sites)
  {
    ContainsMiddle("127.0.0.1 ", "example.com", "\n");
    assert line == "127.0.0.1 " + "example.com" + "\n";
  }

  /** Of two lines, the first mentioning a blocked site and the second not, only the second is kept. */
  lemma DropFirstKeepSecond(first: string, second: string, sites: seq<string>)
    requires IsLine(first) && Terminated(first) && IsLine(second)
    requires Mentions(first, sites) && !Mentions(second, sites)
    ensures Deactivate(first + second, sites) == second
  {
    var lines := [first, second];
    assert Concat(lines) == first + second by {
      assert Concat([second]) == second;
    }
    SplitConcat(lines);
    assert lines[1..] == [second];
    assert Filter([second], sites) == [second];
    assert Concat([second]) == second;
  }

  /** Deactivation removes the redirect of a blocked site and leaves the other lines as they were. */
  lemma DeactivateExample(blocked: string, other: string, sites: seq<string>)
    requires blocked == "127.0.0.1 example.com\n" && other == "127.0.0.1 localhost\n"
    requires sites == ["example.com"]
    ensures Deactivate(blocked + other, sites) == other
  {
    BlockedLineDropped(blocked, sites);
    LocalhostLine(other, sites);
    DropFirstKeepSecond(blocked, other, sites);
  }

  /**
   * The program's activation of a single line that lacks its newline and
   * mentions no blocked site: the redirect is written onto the end of that
   * line, so the site gets no line of its own, and the next deactivation
   * deletes the original line together with the redirect.
   */
  lemma GlueOnUnterminatedLine(line: string, site: string)
    requires IsLine(line) && !Terminated(line) && !Mentions(line, [site]) && NL !in site
    ensures Deactivate(line, [site]) == line
    ensures ActivateAsWritten(line, [site]) == line + RedirectLine(site)
    ensures SplitLines(ActivateAsWritten(line, [site])) == [line + RedirectLine(site)]
    ensures RedirectLine(site) !in SplitLines(ActivateAsWritten(line, [site]))
    ensures Deactivate(ActivateAsWritten(line, [site]), [site]) == []
  {
    OneLine(line, [site]);
    OneRedirect(site);
    GluedLine(line, site);
    OneLine(line + RedirectLine(site), [site]);
    SplitOneLine(line + RedirectLine(site));
  }

  /** A redirect written after a line without its newline makes one line that mentions the site. */
  lemma GluedLine(line: string, site: string)
    requires IsLine(line) && !Terminated(line) && NL !in site
    ensures IsLine(line + RedirectLine(site)) && Mentions(line + RedirectLine(site), [site])
  {
    RedirectsShape([site]);
    assert RedirectLine(site) == Redirects([site])[0];
    UnterminatedHasNoNewline(line);
    JoinLine(line, RedirectLine(site));
    assert line + RedirectLine(site) == (line + Redirect + " ") + site + [NL];
    ContainsMiddle(line + Redirect + " ", site, [NL]);
  }

  /** Hosts content `127.0.0.1 localhost` without a final newline, and `a.com` blocked. */
  lemma UnterminatedLocalhost(line: string, sites: seq<string>)
    requires line == "127.0.0.1 localhost" && sites == ["a.com"]
    ensures IsLine(line) && !Terminated(line) && !Mentions(line, sites)
    ensures NewlineFree(sites) && sites != []
    ensures RedirectLine("a.com") == "127.0.0.1 a.com\n"
  {
    NotMentioned(line, "a.com", 'm');
  }

  /**
   * On that content the program writes the redirect for `a.com` onto the end
   * of the localhost line; `a.com` gets no redirect line of its own, and the
   * next deactivation deletes the localhost entry along with it.
   */
  lemma GluedRedirect(hosts: string, sites: seq<string>)
    requires hosts == "127.0.0.1 localhost" && sites == ["a.com"]
    ensures ActivateAsWritten(hosts, sites) == hosts + RedirectLine("a.com")
    ensures RedirectLine("a.com") !in SplitLines(ActivateAsWritten(hosts, sites))
    ensures Deactivate(hosts, sites) == hosts
    ensures Deactivate(ActivateAsWritten(hosts, sites), sites) == []
  {
    UnterminatedLocalhost(hosts, sites);
    GlueOnUnterminatedLine(hosts, "a.com");
  }

  /** An unterminated line that mentions no blocked site is closed before the redirects. */
  lemma CloseOneLine(line: string, sites: seq<string>)
    requires IsLine(line) && !Terminated(line) && !Mentions(line, sites)
    requires NewlineFree(sites) && sites != []
    ensures Activate(line, sites) == line + "\n" + Concat(Redirects(sites))
    ensures Deactivate(Activate(line, sites), sites) == line + "\n"
  {
    OneLine(line, sites);
    DeactivateAfterActivate(line, sites);
  }

  /** The same content with the last kept line closed first: both entries survive on lines of their own. */
  lemma ClosedRedirect(hosts: string, sites: seq<string>)
    requires hosts == "127.0.0.1 localhost" && sites == ["a.com"]
    ensures Activate(hosts, sites) == hosts + "\n" + RedirectLine("a.com")
    ensures Deactivate(Activate(hosts, sites), sites) == hosts + "\n"
  {
    UnterminatedLocalhost(hosts, sites);
    CloseOneLine(hosts, sites);
    OneRedirect("a.com");
  }

  /** The redirect of a site that ends with a newline: its line, then an empty line. */
  lemma NewlineSiteRedirect(hosts: string, sites: seq<string>, first: string, second: string)
    requires hosts == [] && sites == ["a.com\n"]
    requires first == "127.0.0.1 a.com\n" && second == "\n"
    ensures ActivateAsWritten(hosts, sites) == first + second
    ensures Concat(Redirects(sites)) == first + second
    ensures IsLine(first) && Terminated(first) && IsLine(second) && EndsClosed(second)
    ensures Mentions(first, sites) && !Mentions(second, sites)
  {
    ActivateEmpty(sites);
    OneRedirect(sites[0]);
    RedirectPieces(sites[0], first, second);
  }

  /** The redirect for `a.com` followed by a newline falls into two lines. */
  lemma RedirectPieces(site: string, first: string, second: string)
    requires site == "a.com\n"
    requires first == "127.0.0.1 a.com\n" && second == "\n"
    ensures RedirectLine(site) == first + second
    ensures IsLine(first) && Terminated(first) && IsLine(second) && EndsClosed(second)
    ensures Mentions(first, [site]) && !Mentions(second, [site])
  {
    ContainsMiddle("127.0.0.1 ", site, []);
    assert first == "127.0.0.1 " + site + [];
    NotMentioned(second, site, 'a');
  }

  /** Activating empty hosts content writes just the redirects. */
  lemma ActivateEmpty(sites: seq<string>)
    ensures ActivateAsWritten([], sites) == Concat(Redirects(sites))
  {
    assert SplitLines([]) == [];
    assert Concat([]) == [];
  }

  /**
   * Blocking a site that ends with a newline, which the program's check lets
   * through: the empty line its redirect leaves behind mentions no blocked
   * site, so every further activation adds one more empty line in front.
   */
  lemma NewlineSiteBreaksIdempotence(hosts: string, sites: seq<string>)
    requires hosts == [] && sites == ["a.com\n"]
    ensures ActivateAsWritten(ActivateAsWritten(hosts, sites), sites) == "\n" + ActivateAsWritten(hosts, sites)
    ensures ActivateAsWritten(ActivateAsWritten(hosts, sites), sites) != ActivateAsWritten(hosts, sites)
  {
    var first, second := "127.0.0.1 a.com\n", "\n";
    NewlineSiteRedirect(hosts, sites, first, second);
    EmptyLineStays(first, second, sites);
  }

  /** A kept empty line in front of the redirects: activation adds it once more. */
  lemma EmptyLineStays(first: string, second: string, sites: seq<string>)
    requires Concat(Redirects(sites)) == first + second
    requires IsLine(first) && Terminated(first) && IsLine(second)
    requires Mentions(first, sites) && !Mentions(second, sites)
    ensures ActivateAsWritten(first + second, sites) == second + (first + second)
    ensures ActivateAsWritten(first + second, sites) != first + second
  {
    assert |second + (first + second)| != |first + second|;
    DropFirstKeepSecond(first, second, sites);
  }
}

=== FILE: site_list.dfy ===
/**
 * The list logic of adding and removing blocked sites (bloqueador.py:55-79):
 * validity is checked before duplication, additions go to the end, and a
 * removal deletes the first entry equal to the selected text.
 */
module SiteList {
  import opened Wrappers
  import opened Subsequences
  import opened SiteValidator

  /** Why an addition or a removal was refused; the list is then left as it was. */
  datatype ListError =
    | InvalidFormat   // the text fails the site pattern (or is empty)
    | Duplicate       // the text is already in the list
    | NotSelected     // removal asked for with nothing selected
    | NotInList       // the selected text is not in the list (`list.remove` raises)

  predicate NoDuplicates(sites: seq<string>) {
    forall i, j :: 0 <= i < j < |sites| ==> sites[i] != sites[j]
  }

  predicate AllValid(sites: seq<string>) {
    forall i :: 0 <= i < |sites| ==> IsValidSite(sites[i])
  }

  /** Adds a typed-in site: an invalid one is reported first, then a duplicate. */
  function Add(sites: seq<string>, site: string): (r: Result<seq<string>, ListError>)
    ensures r == Failure(InvalidFormat) <==> !IsValidSite(site)
    ensures r == Failure(Duplicate) <==> IsValidSite(site) && site in sites
    ensures r.Success? ==> |r.value| == |sites| + 1 && r.value[..|sites|] == sites && r.value[|sites|] == site
    ensures IsValidSite(site) && site !in sites ==> r == Success(sites + [site])
  {
    if !IsValidSite(site) then Failure(InvalidFormat)
    else if site in sites then Failure(Duplicate)
    else Success(sites + [site])
  }

  /** A successful addition keeps the list valid and free of duplicates. */
  lemma AddKeepsInvariant(sites: seq<string>, site: string)
    requires NoDuplicates(sites) && AllValid(sites)
    ensures Add(sites, site).Success? ==> NoDuplicates(Add(sites, site).value) && AllValid(Add(sites, site).value)
    ensures Add(sites, site).Success? <==> site !in sites && IsValidSite(site)
  {
  }

  /** Adding the same valid site twice leaves one copy and reports a duplicate the second time. */
  lemma AddTwice(sites: seq<string>, site: string)
    requires IsValidSite(site) && site !in sites
    ensures Add(sites, site).Success?
    ensures Add(Add(sites, site).value, site) == Failure(Duplicate)
    ensures multiset(Add(sites, site).value)[site] == 1
  {
    assert multiset(sites)[site] == 0;
  }

  /** Position of the first element equal to `v`. */
  function FirstIndex(sites: seq<string>, v: string): (i: nat)
    requires v in sites
    ensures i < |sites| && sites[i] == v
    ensures forall k :: 0 <= k < i ==> sites[k] != v
  {
    if sites[0] == v then 0 else 1 + FirstIndex(sites[1..], v)
  }

  /** `list.remove`: deletes the first element equal to `v`, keeping the others in order. */
  function RemoveFirst(sites: seq<string>, v: string): (r: seq<string>)
    requires v in sites
    ensures var i := FirstIndex(sites, v); r == sites[..i] + sites[i+1..]
  {
    if sites[0] == v then sites[1..]
    else
      var t := sites[1..];
      var rest := RemoveFirst(t, v);
      assert FirstIndex(sites, v) == FirstIndex(t, v) + 1;
      DeleteAfterHead(sites, FirstIndex(t, v));
      [sites[0]] + rest
  }

  /** Deleting a position after the head is deleting it from the tail. */
  lemma DeleteAfterHead(sites: seq<string>, j: nat)
    requires j + 1 < |sites|
    ensures sites[..j+1] + sites[j+2..] == [sites[0]] + (sites[1..][..j] + sites[1..][j+1..])
  {
    var t := sites[1..];
    assert sites[..j+1] == [sites[0]] + t[..j];
    assert sites[j+2..] == t[j+1..];
  }

  /** Deleting position `i` leaves one copy of `sites[i]` fewer and everything else. */
  lemma DeleteAtCounts(sites: seq<string>, i: nat)
    requires i < |sites|
    ensures multiset(sites[..i] + sites[i+1..]) == multiset(sites) - multiset{sites[i]}
  {
    assert sites == sites[..i] + [sites[i]] + sites[i+1..];
  }

  /** Deleting position `i` keeps the other elements in their order. */
  lemma {:induction false} DeleteAtOrder(sites: seq<string>, i: nat)
    requires i < |sites|
    ensures IsSubsequence(sites[..i] + sites[i+1..], sites)
  {
    var t := sites[1..];
    assert [sites[0]] + t == sites;
    if i == 0 {
      assert sites[..0] + sites[1..] == t;
      SubsequenceReflexive(t);
      SubsequenceCons(sites[0], t, t);
    } else {
      DeleteAtOrder(t, i - 1);
      assert sites[..i] + sites[i+1..] == [sites[0]] + (t[..i-1] + t[i..]);
      SubsequenceCons(sites[0], t[..i-1] + t[i..], t);
    }
  }

  /** Removes the site selected in the list view; `None` is an empty selection. */
  function Remove(sites: seq<string>, selection: Option<string>): (r: Result<seq<string>, ListError>)
    ensures selection.None? <==> r == Failure(NotSelected)
    ensures r == Failure(NotInList) <==> selection.Some? && selection.value !in sites
    ensures r.Success? ==> selection.Some? && |r.value| == |sites| - 1
    ensures r.Success? ==> multiset(r.value) == multiset(sites) - multiset{selection.value}
    ensures r.Success? ==> IsSubsequence(r.value, sites)
    ensures selection.Some? && selection.value in sites ==>
      r == Success(RemoveFirst(sites, selection.value))
  {
    match selection
    case None => Failure(NotSelected)
    case Some(v) =>
      if v in sites then
        DeleteAtCounts(sites, FirstIndex(sites, v));
        DeleteAtOrder(sites, FirstIndex(sites, v));
        Success(RemoveFirst(sites, v))
      else Failure(NotInList)
  }

  /** Index of `d[a]` in `s`, where `d` is `s` with position `i` deleted. */
  function Shift(i: nat, a: nat): nat {
    if a < i then a else a + 1
  }

  lemma DeletedAt(sites: seq<string>, i: nat, a: nat)
    requires i < |sites| && a < |sites| - 1
    ensures (sites[..i] + sites[i+1..])[a] == sites[Shift(i, a)]
  {
  }

  /** Deleting the one copy of `v` from a duplicate-free list removes `v` and keeps everything else. */
  lemma DeleteDistinctMembers(sites: seq<string>, i: nat)
    requires NoDuplicates(sites) && i < |sites|
    ensures var r := sites[..i] + sites[i+1..];
      sites[i] !in r && forall x :: x != sites[i] ==> (x in r <==> x in sites)
  {
    var r := sites[..i] + sites[i+1..];
    forall x | x != sites[i] && x in sites ensures x in r {
      var k :| 0 <= k < |sites| && sites[k] == x;
      if k < i {
        DeletedAt(sites, i, k);
      } else {
        DeletedAt(sites, i, k - 1);
      }
    }
    forall a | 0 <= a < |r| ensures r[a] != sites[i] {
      DeletedAt(sites, i, a);
    }
  }

  /** Deleting one position keeps a list valid and free of duplicates. */
  lemma DeleteKeepsInvariant(sites: seq<string>, i: nat)
    requires NoDuplicates(sites) && i < |sites|
    ensures NoDuplicates(sites[..i] + sites[i+1..])
    ensures AllValid(sites) ==> AllValid(sites[..i] + sites[i+1..])
  {
    var r := sites[..i] + sites[i+1..];
    forall a, b | 0 <= a < b < |r| ensures r[a] != r[b] {
      DeletedAt(sites, i, a);
      DeletedAt(sites, i, b);
    }
    if AllValid(sites) {
      forall a | 0 <= a < |r| ensures IsValidSite(r[a]) {
        DeletedAt(sites, i, a);
      }
    }
  }

  /**
   * Removing a selected site from a duplicate-free list leaves a list without it,
   * one shorter, with every other site still present, in the same relative order,
   * and still valid and free of duplicates.
   */
  lemma RemoveFromDistinct(sites: seq<string>, v: string)
    requires NoDuplicates(sites) && v in sites
    ensures Remove(sites, Some(v)).Success?
    ensures var r := Remove(sites, Some(v)).value;
      && v !in r
      && |r| == |sites| - 1
      && (forall x :: x != v ==> (x in r <==> x in sites))
      && IsSubsequence(r, sites)
      && NoDuplicates(r)
      && (AllValid(sites) ==> AllValid(r))
  {
    var i := FirstIndex(sites, v);
    DeleteDistinctMembers(sites, i);
    DeleteKeepsInvariant(sites, i);
  }

  /** With nothing selected, removal reports it and the list stays as it was. */
  lemma RemoveNothingSelected(sites: seq<string>)
    ensures Remove(sites, None) == Failure(NotSelected)
  {
  }
}

=== FILE: site_validator.dfy ===
/**
 * The site-format check of the blocker: the pattern `^(www\.)?[\w-]+\.[a-z]{2,}$`
 * (bloqueador.py:40-42), with `\w` read as the ASCII word characters.
 * `IsValidSiteAsWritten` is the check as Python's `re.match` performs it, where
 * `$` also matches just before a newline that ends the input; `IsValidSite`
 * is the check anchored at the end of the input, which the rest of the model uses.
 */
module SiteValidator {

  /** `\w` restricted to ASCII: letters, digits and the underscore. */
  predicate IsWordChar(c: char) {
    'a' <= c <= 'z' || 'A' <= c <= 'Z' || '0' <= c <= '9' || c == '_'
  }

  /** The class `[\w-]` of the label part. */
  predicate IsLabelChar(c: char) {
    IsWordChar(c) || c == '-'
  }

  /** The class `[a-z]` of the top-level part. */
  predicate IsTldChar(c: char) {
    'a' <= c <= 'z'
  }

  predicate AllLabelChars(s: string) {
    forall i :: 0 <= i < |s| ==> IsLabelChar(s[i])
  }

  /** `[a-z]{2,}`: at least two lower-case ASCII letters. */
  predicate IsTld(s: string) {
    |s| >= 2 && forall i :: 0 <= i < |s| ==> IsTldChar(s[i])
  }

  const WwwPrefix: string := "www."

  /*** Reference: the language of the pattern ***/

  /** `s` is a run of label characters, a dot at position `i`, and a top-level part. */
  ghost predicate SplitsAt(s: string, i: int) {
    0 <= i < |s| && s[i] == '.' && AllLabelChars(s[..i]) && IsTld(s[i+1..])
  }

  /** `[\w-]+\.[a-z]{2,}`, covering the whole of `s`. */
  ghost predicate LabelDotTld(s: string) {
    exists i :: 0 < i && SplitsAt(s, i)
  }

  /** `(www\.)?[\w-]+\.[a-z]{2,}`, covering the whole of `s`. */
  ghost predicate MatchesPattern(s: string) {
    LabelDotTld(s) || (WwwPrefix <= s && LabelDotTld(s[|WwwPrefix|..]))
  }

  /*** The recogniser ***/

  /** Recognises `[\w-]*\.[a-z]{2,}` running to the end of `s`, one character at a time. */
  function ScanLabel(s: string): bool
  {
    if s == [] then false
    else if s[0] == '.' then IsTld(s[1..])
    else IsLabelChar(s[0]) && ScanLabel(s[1..])
  }

  /** Recognises `[\w-]+\.[a-z]{2,}`: one label character, then the rest of the label. */
  function ScanSite(s: string): bool
  {
    s != [] && IsLabelChar(s[0]) && ScanLabel(s[1..])
  }

  /*** Correctness of the recogniser ***/

  /** Moving past one label character moves the split point by one. */
  lemma SplitsAtShift(s: string, j: int)
    requires s != [] && IsLabelChar(s[0]) && 0 <= j
    ensures SplitsAt(s[1..], j) <==> SplitsAt(s, j + 1)
  {
    var t := s[1..];
    if j < |t| {
      assert s[..j+1] == [s[0]] + t[..j];
      assert s[j+1+1..] == t[j+1..];
    }
  }

  /** No split can include a leading character that is not a label character. */
  lemma NoSplitAfterBadStart(s: string, i: int)
    requires s != [] && !IsLabelChar(s[0]) && 0 < i
    ensures !SplitsAt(s, i)
  {
    if 0 < i < |s| {
      assert s[..i][0] == s[0];
    }
  }

  lemma {:induction false} ScanLabelCorrect(s: string)
    ensures ScanLabel(s) <==> exists i :: SplitsAt(s, i)
    decreases |s|
  {
    if s == [] {
    } else if s[0] == '.' {
      if ScanLabel(s) {
        assert SplitsAt(s, 0);
      }
      forall i | 0 < i ensures !SplitsAt(s, i) {
        NoSplitAfterBadStart(s, i);
      }
    } else {
      var t := s[1..];
      ScanLabelCorrect(t);
      assert !SplitsAt(s, 0);
      if IsLabelChar(s[0]) {
        if ScanLabel(s) {
          var j :| SplitsAt(t, j);
          SplitsAtShift(s, j);
        }
        if exists i :: SplitsAt(s, i) {
          var i :| SplitsAt(s, i);
          SplitsAtShift(s, i - 1);
        }
      } else {
        forall i | 0 < i ensures !SplitsAt(s, i) {
          NoSplitAfterBadStart(s, i);
        }
      }
    }
  }

  lemma ScanSiteCorrect(s: string)
    ensures ScanSite(s) <==> LabelDotTld(s)
  {
    ScanLabelCorrect(s);
    if s != [] && s[0] == '.' {
      forall i | 0 < i ensures !SplitsAt(s, i) {
        NoSplitAfterBadStart(s, i);
      }
    } else if s != [] {
      assert !SplitsAt(s, 0);
    }
  }

  /** A string ends with a newline after a match exactly when it is a match followed by one newline. */
  lemma BeforeFinalNewline(s: string)
    ensures (s != [] && s[|s| - 1] == '\n' && MatchesPattern(s[..|s| - 1])) <==>
      exists t :: s == t + "\n" && MatchesPattern(t)
  {
    if s != [] && s[|s| - 1] == '\n' {
      assert s == s[..|s| - 1] + "\n";
    }
    if exists t :: s == t + "\n" && MatchesPattern(t) {
      var t :| s == t + "\n" && MatchesPattern(t);
      assert s[..|s| - 1] == t;
    }
  }

  /*** The checks ***/

  /**
   * The validator, anchored at the end of the input: with or without the
   * optional `www.` prefix, the rest must be a label, a dot and a top-level
   * part. Both alternatives are tried, as a backtracking engine does, and the
   * check accepts exactly the strings of the pattern.
   */
  function IsValidSite(site: string): (ok: bool)
    ensures ok <==> MatchesPattern(site)
  {
    ScanSiteCorrect(site);
    ScanSiteCorrect(if WwwPrefix <= site then site[|WwwPrefix|..] else site);
    ScanSite(site) || (WwwPrefix <= site && ScanSite(site[|WwwPrefix|..]))
  }

  /**
   * The check as the program runs it: `$` matches at the end of the input and
   * also just before a final newline, so the strings of the pattern are
   * accepted, and so are those strings followed by one newline.
   */
  function IsValidSiteAsWritten(site: string): (ok: bool)
    ensures ok <==> MatchesPattern(site) || exists t :: site == t + "\n" && MatchesPattern(t)
  {
    BeforeFinalNewline(site);
    IsValidSite(site) || (site != [] && site[|site| - 1] == '\n' && IsValidSite(site[..|site| - 1]))
  }

  /** On input without a newline the program's check and the anchored check agree. */
  lemma AsWrittenAgreesWithoutNewline(s: string)
    ensures IsValidSite(s) ==> IsValidSiteAsWritten(s)
    ensures '\n' !in s ==> (IsValidSiteAsWritten(s) <==> IsValidSite(s))
  {
  }

  /*** Consequences of the pattern ***/

  /** Every character of an accepted site is a label character or a dot. */
  lemma ValidSiteAlphabet(s: string)
    requires IsValidSite(s)
    ensures forall k :: 0 <= k < |s| ==> IsLabelChar(s[k]) || s[k] == '.'
  {
    if LabelDotTld(s) {
      var i :| 0 < i && SplitsAt(s, i);
      forall k | 0 <= k < |s| ensures IsLabelChar(s[k]) || s[k] == '.' {
        if k < i {
          assert s[..i][k] == s[k];
        } else if k > i {
          assert s[i+1..][k-i-1] == s[k];
        }
      }
    } else {
      var t := s[4..];
      var i :| 0 < i && SplitsAt(t, i);
      forall k | 0 <= k < |s| ensures IsLabelChar(s[k]) || s[k] == '.' {
        if k < 4 {
          assert s[k] == WwwPrefix[k];
        } else if k - 4 < i {
          assert t[..i][k-4] == s[k];
        } else if k - 4 > i {
          assert t[i+1..][k-4-i-1] == s[k];
        }
      }
    }
  }

  /** The empty string, strings without a dot and strings with a space or a newline are rejected. */
  lemma ValidSiteRejects(s: string)
    ensures s == [] ==> !IsValidSite(s)
    ensures '.' !in s ==> !IsValidSite(s)
    ensures ' ' in s ==> !IsValidSite(s)
    ensures '\n' in s ==> !IsValidSite(s)
  {
    if IsValidSite(s) {
      ValidSiteAlphabet(s);
      ValidSiteDots(s);
    }
  }

  lemma NoDotInLabel(s: string)
    requires AllLabelChars(s)
    ensures multiset(s)['.'] == 0
  {
    assert '.' !in s;
  }

  lemma NoDotInTld(s: string)
    requires IsTld(s)
    ensures multiset(s)['.'] == 0
  {
    assert '.' !in s;
  }

  /** Label, dot and top-level part hold exactly one dot between them. */
  lemma LabelDotTldOneDot(s: string)
    requires LabelDotTld(s)
    ensures multiset(s)['.'] == 1
  {
    var i :| 0 < i && SplitsAt(s, i);
    assert s == s[..i] + [s[i]] + s[i+1..];
    NoDotInLabel(s[..i]);
    NoDotInTld(s[i+1..]);
  }

  /** An accepted site has one dot, or two dots and the leading `www.`. */
  lemma ValidSiteDots(s: string)
    requires IsValidSite(s)
    ensures multiset(s)['.'] == 1 || (multiset(s)['.'] == 2 && WwwPrefix <= s)
  {
    if LabelDotTld(s) {
      LabelDotTldOneDot(s);
    } else {
      LabelDotTldOneDot(s[4..]);
      assert s == WwwPrefix + s[4..];
      assert multiset(WwwPrefix)['.'] == 1;
    }
  }

  /**
   * After the last dot of an accepted site come at least two lower-case
   * letters, so an upper-case top-level part is never accepted.
   */
  lemma ValidSiteTld(s: string)
    requires IsValidSite(s)
    ensures exists i :: 0 <= i < |s| && s[i] == '.' && '.' !in s[i+1..] && IsTld(s[i+1..])
  {
    if LabelDotTld(s) {
      var i :| 0 < i && SplitsAt(s, i);
      NoDotInTld(s[i+1..]);
      assert s[i] == '.' && '.' !in s[i+1..] && IsTld(s[i+1..]);
    } else {
      var t := s[4..];
      var i :| 0 < i && SplitsAt(t, i);
      NoDotInTld(t[i+1..]);
      assert s[i+4] == '.' && s[i+4+1..] == t[i+1..];
    }
  }

  /** A site without the prefix that is accepted stays accepted with `www.` in front. */
  lemma PrefixKeepsValid(site: string)
    requires ScanSite(site)
    ensures IsValidSite(WwwPrefix + site)
  {
    assert (WwwPrefix + site)[|WwwPrefix|..] == site;
  }

  /** Accepted examples of the blocker's documentation. */
  lemma AcceptedWithoutPrefix()
    ensures ScanSite("example.com")
    ensures IsValidSite("example.com")
  {
    ExampleScans();
  }

  lemma AcceptedWithPrefix()
    ensures IsValidSite("www.example.com")
  {
    var rest := "example.com";
    ExampleScans();
    PrefixKeepsValid(rest);
    assert WwwPrefix + rest == "www.example.com";
  }

  /** The scan of `example.com`, one label character at a time. */
  lemma ExampleScans()
    ensures ScanSite("example.com")
  {
    assert IsTld("com");
    assert ScanLabel(".com");
    assert ScanLabel("e.com");
    assert ScanLabel("le.com");
    assert ScanLabel("ple.com");
    assert ScanLabel("mple.com");
    assert ScanLabel("ample.com");
    assert ScanLabel("xample.com");
  }

  /** `www.com` is accepted, read as the label `www` and the top-level part `com`. */
  lemma AcceptedBareWww()
    ensures IsValidSite("www.com")
  {
    assert ScanSite("www.com");
  }

  /** A site followed by a newline passes the program's check but not the anchored one. */
  lemma TrailingNewlineAccepted()
    ensures IsValidSiteAsWritten("example.com\n")
    ensures !IsValidSite("example.com\n")
  {
    var site := "example.com\n";
    AcceptedWithoutPrefix();
    assert site[..|site| - 1] == "example.com";
    ValidSiteRejects(site);
  }

  /** Rejected examples: no dot, and a space inside the label. */
  lemma RejectedExamples()
    ensures !IsValidSite("example")
    ensures !IsValidSite("exa mple.com")
  {
    ValidSiteRejects("example");
    ValidSiteRejects("exa mple.com");
  }

  /** An upper-case top-level part is rejected. */
  lemma UpperCaseTldRejected()
    ensures !IsValidSite("EXAMPLE.COM")
  {
    assert !IsTld("COM") by {
      assert !IsTldChar("COM"[0]);
    }
    assert !ScanLabel(".COM");
    assert !ScanLabel("E.COM");
    assert !ScanLabel("LE.COM");
    assert !ScanLabel("PLE.COM");
    assert !ScanLabel("MPLE.COM");
    assert !ScanLabel("AMPLE.COM");
    assert !ScanLabel("XAMPLE.COM");
    assert !(WwwPrefix <= "EXAMPLE.COM") by {
      assert "EXAMPLE.COM"[0] != WwwPrefix[0];
    }
  }
}

=== FILE: subsequences.dfy ===
/** Order-preserving sub-sequences, used to say that an operation only deletes. */
module Subsequences {

  /** `a` is obtained from `b` by deleting zero or more elements, keeping the rest in order. */
  ghost predicate IsSubsequence<T>(a: seq<T>, b: seq<T>)
    decreases |b|
  {
    a == [] || (b != [] && (IsSubsequence(a, b[1..]) || (a[0] == b[0] && IsSubsequence(a[1..], b[1..]))))
  }

  /** Every sequence is a sub-sequence of itself. */
  lemma {:induction false} SubsequenceReflexive<T>(a: seq<T>)
    ensures IsSubsequence(a, a)
    decreases |a|
  {
    if a != [] {
      SubsequenceReflexive(a[1..]);
    }
  }

  /** Keeping or dropping the head of `b` preserves the relation. */
  lemma SubsequenceCons<T>(x: T, a: seq<T>, b: seq<T>)
    requires IsSubsequence(a, b)
    ensures IsSubsequence(a, [x] + b)
    ensures IsSubsequence([x] + a, [x] + b)
  {
    assert ([x] + b)[1..] == b;
    assert ([x] + a)[1..] == a;
  }
}

=== FILE: text_lines.dfy ===
/**
 * Text as a sequence of lines, the way a text file is read with `readlines()`
 * and written back line by line: every line keeps its terminating newline,
 * and only the last one may lack it.
 */
module TextLines {

  const NL: char := '\n'

  /** Writes the lines one after another, as successive `write` calls do. */
  function Concat(lines: seq<string>): (text: string)
    ensures lines == [] ==> text == []
    ensures lines != [] ==> lines[0] <= text
  {
    if lines == [] then [] else lines[0] + Concat(lines[1..])
  }

  lemma {:induction false} ConcatAppend(a: seq<string>, b: seq<string>)
    ensures Concat(a + b) == Concat(a) + Concat(b)
    decreases |a|
  {
    if a != [] {
      assert (a + b)[1..] == a[1..] + b;
      ConcatAppend(a[1..], b);
    } else {
      assert a + b == b;
    }
  }

  /** A line as `readlines` returns it: non-empty, with a newline at most as its final character. */
  predicate IsLine(line: string) {
    |line| > 0 && forall j :: 0 <= j < |line| - 1 ==> line[j] != NL
  }

  predicate Terminated(line: string) {
    |line| > 0 && line[|line| - 1] == NL
  }

  /** The shape of a `readlines` result: lines, all terminated except perhaps the last. */
  predicate WellFormed(lines: seq<string>) {
    && (forall i :: 0 <= i < |lines| ==> IsLine(lines[i]))
    && (forall i :: 0 <= i < |lines| - 1 ==> Terminated(lines[i]))
  }

  predicate AllTerminated(lines: seq<string>) {
    forall i :: 0 <= i < |lines| ==> Terminated(lines[i])
  }

  /** Text that is empty or ends with a newline: its last line is complete. */
  predicate EndsClosed(text: string) {
    text == [] || text[|text| - 1] == NL
  }

  /** Length of the first line of `text`, its newline included. */
  function LineEnd(text: string): (k: nat)
    ensures text != [] ==> 1 <= k
    ensures k <= |text|
    ensures forall j :: 0 <= j < k - 1 ==> text[j] != NL
    ensures 0 < k < |text| ==> text[k - 1] == NL
    ensures k == |text| && text != [] && text[k - 1] != NL ==> NL !in text
  {
    if text == [] then 0
    else if text[0] == NL then 1
    else 1 + LineEnd(text[1..])
  }

  /** `readlines`: the text cut after every newline. */
  function SplitLines(text: string): (lines: seq<string>)
    ensures Concat(lines) == text
    ensures WellFormed(lines)
    decreases |text|
  {
    if text == [] then []
    else
      var k := LineEnd(text);
      var rest := SplitLines(text[k..]);
      assert text == text[..k] + text[k..];
      assert ([text[..k]] + rest)[1..] == rest;
      [text[..k]] + rest
  }

  lemma {:induction false} LineEndOfLine(line: string, rest: string)
    requires IsLine(line)
    requires Terminated(line) || rest == []
    ensures LineEnd(line + rest) == |line|
    decreases |line|
  {
    var t := line + rest;
    if t[0] != NL {
      if |line| == 1 {
        assert rest == [] && t == line;
      } else {
        assert t[1..] == line[1..] + rest;
        LineEndOfLine(line[1..], rest);
      }
    }
  }

  /** Reading back what was written line by line gives the same lines. */
  lemma {:induction false} SplitConcat(lines: seq<string>)
    requires WellFormed(lines)
    ensures SplitLines(Concat(lines)) == lines
    decreases |lines|
  {
    if lines != [] {
      var rest := lines[1..];
      assert WellFormed(rest) by {
        forall i | 0 <= i < |rest| - 1 ensures Terminated(rest[i]) {
          assert rest[i] == lines[i + 1];
        }
      }
      SplitConcat(rest);
      LineEndOfLine(lines[0], Concat(rest));
      var t := Concat(lines);
      assert t[|lines[0]|..] == Concat(rest);
      assert t[..|lines[0]|] == lines[0];
    }
  }

  /** Terminated lines followed by more lines keep the `readlines` shape. */
  lemma WellFormedAppend(a: seq<string>, b: seq<string>)
    requires WellFormed(a) && AllTerminated(a) && WellFormed(b)
    ensures WellFormed(a + b)
    ensures AllTerminated(b) ==> AllTerminated(a + b)
  {
    forall i | 0 <= i < |a + b| ensures IsLine((a + b)[i]) && (i < |a + b| - 1 || AllTerminated(b) ==> Terminated((a + b)[i])) {
      if i < |a| {
        assert (a + b)[i] == a[i];
      } else {
        assert (a + b)[i] == b[i - |a|];
      }
    }
  }

  /** A text that ends with a newline is read as terminated lines only. */
  lemma SplitClosed(text: string)
    requires EndsClosed(text)
    ensures AllTerminated(SplitLines(text))
  {
    var lines := SplitLines(text);
    if lines != [] {
      var n := |lines| - 1;
      ConcatAppend(lines[..n], [lines[n]]);
      assert lines == lines[..n] + [lines[n]];
      assert Concat([lines[n]]) == lines[n];
    }
  }

  /** Writing terminated lines gives a text that ends with a newline. */
  lemma {:induction false} ConcatClosed(lines: seq<string>)
    requires AllTerminated(lines)
    ensures EndsClosed(Concat(lines))
    decreases |lines|
  {
    if lines != [] {
      ConcatClosed(lines[1..]);
    }
  }

  /** Python's `pat in text`: `pat` occurs in `text` as a contiguous block. */
  predicate Contains(text: string, pat: string): (c: bool)
    ensures pat <= text ==> c
    ensures c ==> |pat| <= |text|
    decreases |text|
  {
    pat <= text || (text != [] && Contains(text[1..], pat))
  }

  /** Where `pat` first occurs in `text`. */
  function FirstOccurrence(text: string, pat: string): (i: nat)
    requires Contains(text, pat)
    ensures i <= |text| && pat <= text[i..]
    ensures forall k :: 0 <= k < i ==> !(pat <= text[k..])
    decreases |text|
  {
    if pat <= text then 0
    else
      var j := FirstOccurrence(text[1..], pat);
      assert text[1..][j..] == text[j + 1..];
      assert forall k :: 1 <= k <= j ==> text[1..][k - 1..] == text[k..];
      j + 1
  }

  lemma {:induction false} ContainsAt(text: string, pat: string, i: nat)
    requires i <= |text| && pat <= text[i..]
    ensures Contains(text, pat)
    decreases i
  {
    if i > 0 {
      assert text[1..][i - 1..] == text[i..];
      ContainsAt(text[1..], pat, i - 1);
    }
  }

  /** `Contains` holds exactly when `pat` starts at some position of `text`. */
  lemma ContainsIff(text: string, pat: string)
    ensures Contains(text, pat) <==> exists i :: 0 <= i <= |text| && pat <= text[i..]
  {
    if Contains(text, pat) {
      var i := FirstOccurrence(text, pat);
      assert pat <= text[i..];
    }
    if exists i :: 0 <= i <= |text| && pat <= text[i..] {
      var i :| 0 <= i <= |text| && pat <= text[i..];
      ContainsAt(text, pat, i);
    }
  }

  /** A block occurs in any text it is placed in the middle of. */
  lemma {:induction false} ContainsMiddle(before: string, pat: string, after: string)
    ensures Contains(before + pat + after, pat)
    decreases |before|
  {
    if before != [] {
      assert (before + pat + after)[1..] == before[1..] + pat + after;
      ContainsMiddle(before[1..], pat, after);
    }
  }

  /** Appending a newline creates no occurrence of a block free of newlines. */
  lemma {:induction false} ContainsAppendNewline(text: string, pat: string)
    requires NL !in pat
    ensures Contains(text + [NL], pat) <==> Contains(text, pat)
    decreases |text|
  {
    var t := text + [NL];
    if text == [] {
      assert t[1..] == [];
      assert pat <= t ==> pat == [] || pat == t;
    } else {
      assert t[1..] == text[1..] + [NL];
      ContainsAppendNewline(text[1..], pat);
      assert pat <= text ==> pat <= t;
      assert pat <= t ==> pat <= text || pat == t by {
        if |pat| <= |text| {
          assert t[..|pat|] == text[..|pat|];
        }
      }
      assert t[|text|] == NL;
    }
  }

  /** Every character of an occurring block is a character of the text. */
  lemma ContainsChars(text: string, pat: string)
    requires Contains(text, pat)
    ensures forall j :: 0 <= j < |pat| ==> pat[j] in text
  {
    var i := FirstOccurrence(text, pat);
    forall j | 0 <= j < |pat| ensures pat[j] in text {
      assert text[i..][j] == text[i + j];
    }
  }

  /** A single line is read back as itself. */
  lemma SplitOneLine(line: string)
    requires IsLine(line)
    ensures SplitLines(line) == [line]
  {
    assert Concat([line]) == line;
    SplitConcat([line]);
  }

  /** A line without its newline has none at all. */
  lemma UnterminatedHasNoNewline(line: string)
    requires IsLine(line) && !Terminated(line)
    ensures NL !in line
  {
  }

  /** Text free of newlines put in front of a line gives one longer line. */
  lemma JoinLine(front: string, line: string)
    requires NL !in front && IsLine(line)
    ensures IsLine(front + line)
  {
    var j := front + line;
    forall k | 0 <= k < |j| - 1 ensures j[k] != NL {
      if k < |front| {
        assert j[k] == front[k];
      } else {
        assert j[k] == line[k - |front|];
      }
    }
  }

  /** Text without a newline, closed by one, is a single line. */
  lemma CloseLine(text: string)
    ensures NL !in text ==> IsLine(text + [NL]) && Terminated(text + [NL])
  {
    if NL !in text {
      JoinLine(text, [NL]);
    }
  }
}

=== FILE: wrappers.dfy ===
/** Failure-carrying datatypes shared by the blocker's modules. */
module Wrappers {

  /** A value that may be absent: a missing backup file, an empty selection. */
  datatype Option<+T> = None | Some(value: T)

  /** The outcome of an operation that either produces a value or reports an error. */
  datatype Result<+R, +E> = Success(value: R) | Failure(error: E)
}
